=== FILE: README.md ===
# codetalk — a Dafny model of the indexing and question-answering core

codetalk is a command-line tool that lets a user ask questions about a
codebase. It scans the codebase once, turns the eligible source files into
documents under a token budget, and stores them in a vector index. It then
answers each question by sending a language model a prompt built from the
retrieved files, the recent conversation and the question, and streams the
answer to the terminal.

This project models that core as pure Dafny functions and small methods, and
proves what the code promises about it:

- `Providers` (providers.dfy): the provider switch. It is written three times
  in the code: `getEmbeddings`, `initializeLLM` and `queryLLM`. Exactly
  "gemini", "openai" and "ollama" are accepted, each with the settings it
  passes, and any other name fails with the code's message.
- `VectorStore` (vector_store.dfy): `createVectorStore`.
  - The defaults: eight extensions, a limit of 100000 tokens, no ignore
    patterns.
  - Node's `path.extname` and the file type derived from it.
  - `walkDir`, the depth-first scan. The filesystem is a `Node` tree. The
    scan skips ignored paths and lists every other entry with `├── ` / `└── `
    art. It stops at the first allowed file whose tokens would exceed the
    budget. It aborts on an unreadable directory, and on an unreadable file
    whose extension is allowed; any other unreadable file is only listed.
- `ScanOrder` (scan_order.dfy): a reference semantics for the scan, and the
  theorems that connect `Walk` to it.
  - The reference flattens the tree into a depth-first list of steps and then
    runs that list.
  - When nothing unreadable is on the way, the accepted documents are the
    longest prefix of the eligible files, in listing order, whose token sum
    fits the limit.
  - Every accepted document is an allowed, non-ignored file whose type and
    token count are its own.
  - An ignored entry is never examined.
  - A failure comes only from an unreadable entry that the walk reaches,
    and every unreadable entry it reaches fails it.
  - The listing is a prefix of the steps' lines.
- `ConversationHistory` (history.dfy): add, get and clear on the process-wide
  log, capped at 20 entries. After any run of appends the log is the last 20
  entries of the old log and everything appended, taken together.
- `Prompts` (prompts.dfy): `formatConversationHistory`, the concatenation
  loop of `buildContext` and the `constructFullPrompt` template.
- `Streaming` (streaming.dfy):
  - The Gemini retry loop. Stream-parse failures are retried after 1000·(k+1)
    ms, up to three attempts, and every chunk is written once.
  - The OpenAI buffering. Writes are flushed when the buffer exceeds 20
    characters or a token holds a newline. Together the writes reproduce the
    response exactly.
  - The `queryLLM` dispatch.
- `Ask` (ask.dfy): the `ask` command.
  - The exit test.
  - One loop pass, which appends the question and the answer on success and
    leaves the log unchanged on failure.
  - A whole session, whose log is the last 20 entries of the old log and the
    session's alternating questions and answers, taken together.
  - The set-up: the client first, then the store, built only when none exists.

External effects are parameters:

- The directory tree and file contents are the `Node` value.
- The `ignore` matcher and the `gpt-3-encoder` count are functions in
  `ScanConfig`.
- The vector-store search and each provider's answer form a scripted
  `Backend`: Gemini attempts, OpenAI token streams and Ollama results.
- The conversation step receives the model as an oracle. The oracle is
  indexed by the position of the line in the session, so a question retyped
  after a failed query can be answered.
- Standard output is the list of strings written.
- The waits between Gemini retries are the list of requested delays.

Behaviours of the code worth knowing, which the model keeps:

- When the last entry of a directory's raw listing is ignored, no listed
  entry of that directory gets the `└── ` connector. `isLast` is computed on
  the raw listing.
- The file that trips the budget is listed in the tree but not indexed.
- Text streamed by a Gemini attempt that then failed stays in the response.
  A later successful streamed attempt returns the concatenation of
  everything written. A non-streamed result replaces it.
- Retrieval always searches for the empty string with k = 10. The question
  is not used to search.
- An allowed file that cannot be read rejects the whole scan; it is not
  skipped (src/utils/vectorStore.js:74, 118-121).
- On the last Gemini attempt a parse failure is rethrown with its own
  message. "Max retries reached..." is thrown only when no attempt is made
  at all, that is when retries ≤ 0 (src/utils/langchain.js:64-69, 73).
- The history cap is 20 entries, although the comment above it says 10
  (src/utils/conversationHistory.js:9-11).
- `queryLLM` calls `loadConfig` again, but `loadConfig` returns the object
  it cached on the first call (src/utils/config.js:13). So `queryLLM` sees
  the provider `initializeLLM` saw. The model treats the two separately:
  `Ask`'s oracle stands for `queryLLM` under the configuration that
  `Ask.RunAsk` initialised, and `Streaming.QueryLlm` models one such call
  for a given provider. No member composes the two.

## Model

| member | source | states |
|---|---|---|
| `Providers.Recognise` | src/utils/langchain.js:9-21 | exactly "gemini", "openai" and "ollama" are recognised (case-sensitive); a recognised name is the provider's own name |
| `Providers.RecogniseName` | src/utils/langchain.js:27-35 | every provider's name is recognised as that provider |
| `Providers.GetEmbeddings` | src/utils/vectorStore.js:17-36 | succeeds iff the provider is recognised; Gemini/OpenAI get key and embedding model, Ollama only the model; otherwise the error "Unsupported LLM provider for embeddings: <name>" |
| `Providers.InitializeLlm` | src/utils/langchain.js:7-22 | succeeds iff the provider is recognised; Gemini gets only the key, OpenAI key and model, Ollama the model; otherwise "Unsupported LLM provider: <name>" |
| `ConversationHistory.LastN` | src/utils/conversationHistory.js:10-12 | keeps min(n, length) entries, and they are a suffix of the input |
| `ConversationHistory.Clear` | src/utils/conversationHistory.js:16-18 | the log is empty afterwards |
| `ConversationHistory.Get` | src/utils/conversationHistory.js:3-5 | the log is handed out unchanged |
| `ConversationHistory.Add` | src/utils/conversationHistory.js:7-13 | the result has at most 20 entries and ends with the new entry; below the cap it is a plain append; at the cap it is exactly 20 long and a suffix of the old log plus the entry |
| `ConversationHistory.AddIsLastN` | src/utils/conversationHistory.js:7-13 | one append gives the last 20 entries of the old log and the new entry taken together |
| `ConversationHistory.AddAllKeepsNewest` | src/utils/conversationHistory.js:7-13 | any non-empty run of appends yields the last 20 entries of the old log and all appended entries taken together, in order |
| `ConversationHistory.LastNAppend` | src/utils/conversationHistory.js:10-12 | capping before appending more and capping afterwards give the same log |
| `VectorStore.ResolveExtensions` | src/utils/vectorStore.js:40-43 | a configured map is used as is; otherwise exactly the eight default extensions, all enabled |
| `VectorStore.ResolveLimit` | src/utils/vectorStore.js:45 | a configured non-zero limit is used; a missing or zero one becomes 100000; the result is never zero |
| `VectorStore.ResolveIgnores` | src/utils/vectorStore.js:48 | no patterns ignore nothing; configured patterns are used as given |
| `VectorStore.LastDot` | src/utils/vectorStore.js:73 | finds the last '.' of a name, or reports that it has none |
| `VectorStore.Extname` | src/utils/vectorStore.js:73 | the extension is a suffix of the name that is empty or one dot followed by no dot; it is empty exactly when the name has no dot, its last dot is its first character, or it is ".." |
| `VectorStore.RemoveFirstDot` | src/utils/vectorStore.js:87 | a string without a dot is kept; otherwise exactly one character is removed |
| `VectorStore.FirstDot` | src/utils/vectorStore.js:87 | the position of a name's first '.': a dot, with no dot before it |
| `VectorStore.RemoveFirstDotDropsFirstDot` | src/utils/vectorStore.js:87 | `replace('.', '')` removes exactly the first '.', keeping what comes before and after it |
| `VectorStore.FileType` | src/utils/vectorStore.js:87 | the file type is the extension without its dot, or empty when there is none |
| `VectorStore.Walk` | src/utils/vectorStore.js:54-93 | a walk that returns only extends the documents and the listing, and preserves the budget invariant (token total = sum of accepted documents' tokens, within the limit) |
| `VectorStore.ScanCodebase` | src/utils/vectorStore.js:95-96 | only a readable directory root can succeed; the reported total is the documents' token sum and within the limit once anything was accepted |
| `VectorStore.CreateVectorStore` | src/utils/vectorStore.js:38-122 | succeeds iff the scan succeeds and the provider is recognised; a scan rejection is rethrown before the provider is looked at; after a successful scan an unrecognised provider fails with "Unsupported LLM provider for embeddings: <name>"; the build carries the scan's result and the provider's embeddings |
| `ScanOrder.RunAppend` | src/utils/vectorStore.js:57-91 | running two step lists in sequence equals running their concatenation |
| `ScanOrder.WalkIsRun` | src/utils/vectorStore.js:54-93 | the recursive walk equals running its depth-first step list, whatever the tree |
| `ScanOrder.WalkIsRunDir` | src/utils/vectorStore.js:69-72 | a listed subdirectory is walked in place with the deeper prefix, and a stop inside it ends the walk |
| `ScanOrder.WalkIsRunLeaf` | src/utils/vectorStore.js:62-90 | a non-directory entry that is not ignored contributes exactly its step |
| `ScanOrder.OfferSteps` | src/utils/vectorStore.js:73-88 | an allowed readable file contributes one step: its tree line and its offer, with its relative path, file type and token count |
| `ScanOrder.WalkAtOffer` | src/utils/vectorStore.js:73-89 | at an allowed readable file the walk stops with "reached limit" when the file does not fit, and otherwise continues with the file accepted |
| `ScanOrder.WalkIsRunOffer` | src/utils/vectorStore.js:73-89 | an allowed readable file is listed and then accepted or stops the walk as its step says |
| `ScanOrder.WalkIsRunListed` | src/utils/vectorStore.js:64-67 | an entry that is neither walked nor read is only listed |
| `ScanOrder.ListedStep` | src/utils/vectorStore.js:67 | a listing-only step appends its line and changes nothing else |
| `ScanOrder.TakeWithinIsLongestFittingPrefix` | src/utils/vectorStore.js:77-81 | the selection is a prefix whose token sum fits, the next candidate would overflow, and no longer prefix fits |
| `ScanOrder.RunAccepts` | src/utils/vectorStore.js:73-89 | without failures, a run accepts exactly the longest fitting prefix of the offered files, adds their tokens, and reports the limit iff some offer was left out |
| `ScanOrder.RunAcceptsOffer` | src/utils/vectorStore.js:77-89 | the same, for a list that starts with an offered file |
| `ScanOrder.RunDocsOffered` | src/utils/vectorStore.js:83-89 | every accepted document was offered by some step |
| `ScanOrder.DocsAppend` | src/utils/vectorStore.js:83 | the documents of two candidate lists are those of each, in order |
| `ScanOrder.RunFailsAtFailStep` | src/utils/vectorStore.js:55-74 | a run fails only with the error of an unreadable step it reaches: no unreadable step comes before it, and every file offered before it fits the budget |
| `ScanOrder.ReachesCons` | src/utils/vectorStore.js:64-89 | a listed entry, or an allowed file that fits, in front of a reached unreadable entry does not keep the walk from reaching it |
| `ScanOrder.RunFailsAtReachedFail` | src/utils/vectorStore.js:69-74 | conversely, a run that reaches an unreadable step fails with that step's error |
| `ScanOrder.RunListing` | src/utils/vectorStore.js:64-79 | the listing is the lines of a prefix of the steps: all of them when the limit was not reached; otherwise up to and including the file that tripped the budget, the files offered up to there being the accepted ones followed by that file |
| `ScanOrder.ListedCount` | src/utils/vectorStore.js:64-79 | the number of steps a run lists is at most the number of steps |
| `ScanOrder.RunListingLines` | src/utils/vectorStore.js:64-67 | a run that returns has listed the lines of its first `ListedCount` steps, all of them when the limit was not reached |
| `ScanOrder.RunListingTrips` | src/utils/vectorStore.js:77-79 | a run that stops at the limit stops at the first offered file after the accepted ones |
| `ScanOrder.TripsFirst` | src/utils/vectorStore.js:77-79 | an offered file that does not fit at once is the one that trips the budget |
| `ScanOrder.TripsCons` | src/utils/vectorStore.js:64-89 | a listed entry, or an accepted file, in front of the tripping file keeps it the tripping file |
| `ScanOrder.WalkListsEntryFirst` | src/utils/vectorStore.js:62-70 | a non-ignored entry's line `prefix + connector + name` is written before anything else the walk does with it, with the last-entry connector iff it is last in the raw listing (ignored entries included), so the budget-tripping file is listed too |
| `ScanOrder.EntryStepsStartWithLine` | src/utils/vectorStore.js:64-67 | an entry's steps begin with its own tree line |
| `ScanOrder.RunListsFirst` | src/utils/vectorStore.js:67 | a run that returns has written its first step's line first |
| `ScanOrder.OffersAppend` | src/utils/vectorStore.js:57-91 | the files offered by two step lists are those of each, in order |
| `ScanOrder.RelPathEndsWithName` | src/utils/vectorStore.js:59-60 | a relative path ends with the entry's name |
| `ScanOrder.FlattenOffersWellFormed` | src/utils/vectorStore.js:59-89 | every offered file is allowed, not ignored, has its own name at the end of its path, its extension as file type and the tokenizer's count of its content |
| `ScanOrder.EntryOffersWellFormed` | src/utils/vectorStore.js:62-89 | the same for the steps of one non-ignored entry |
| `ScanOrder.IgnoredEntryNeverExamined` | src/utils/vectorStore.js:62 | replacing an ignored entry by any entry of the same name changes neither the steps nor the walk |
| `ScanOrder.IgnoredEntryFlatten` | src/utils/vectorStore.js:62 | the same for the step list alone |
| `ScanOrder.DocsMember` | src/utils/vectorStore.js:83-89 | a document of a candidate list comes from one of its candidates |
| `ScanOrder.ScanDocumentsEligible` | src/utils/vectorStore.js:54-96 | every document of a successful scan is an allowed, non-ignored file of the tree, with its own type and token count |
| `ScanOrder.ScanSelectsFittingPrefix` | src/utils/vectorStore.js:54-96 | for steps split as `pre + post`, where `pre` holds nothing unreadable and `post` is empty or comes after the file that trips the budget (so it may hold unreadable entries): the scan succeeds with the longest fitting prefix of `pre`'s eligible files in listing order, their token total, "reached limit" iff a file was left out, and the full listing otherwise |
| `ScanOrder.ScanFailsOnlyAtUnreadable` | src/utils/vectorStore.js:55-74 | a failed scan failed with the error of an unreadable entry the walk reached |
| `ScanOrder.ScanFailsAtReachedUnreadable` | src/utils/vectorStore.js:54-96 | conversely, a scan whose walk reaches an unreadable entry fails with that entry's error |
| `ScanOrder.TokensAppend` | src/utils/vectorStore.js:81 | the token counts of two candidate lists add up |
| `ScanOrder.TokensAreTokenSum` | src/utils/vectorStore.js:75-81 | summing the candidates' own counts gives the running total over their documents whenever each count is the tokenizer's count of its content |
| `Prompts.EntryLines` | src/utils/langchain.js:139 | one line per entry, in order, each `role: content` |
| `Prompts.FormatConversationHistory` | src/utils/langchain.js:138-140 | an empty log renders as "" and a single entry as its line alone |
| `Prompts.FormatAppend` | src/utils/langchain.js:139 | one more entry appends exactly a newline and its line: oldest first, one separator between lines |
| `Prompts.BuildContext` | src/utils/langchain.js:122-136 | no documents give the empty context; a single document gives exactly its `File:` block |
| `Prompts.BuildContextAppend` | src/utils/langchain.js:130-134 | the context keeps retrieval order: the context of a concatenation is the concatenation of the contexts |
| `Prompts.BuildContextUncapped` | src/utils/langchain.js:127-133 | nothing is truncated: the context is exactly as long as all `File:` blocks together |
| `Prompts.Frame` | src/utils/langchain.js:143-156 | a template's frame holds the seven pieces in order, each at its offset, and nothing else |
| `Prompts.ConstructFullPrompt` | src/utils/langchain.js:142-163 | the prompt is the fixed header, the context, the history label, the history, the question label (two newlines, indentation, "Question: "), the question and the answer label, each at its offset and nothing else |
| `Prompts.PromptDeterminesParts` | src/utils/langchain.js:143-156 | equal prompts with equally long contexts and histories have equal contexts, histories and questions |
| `Prompts.FrameDetermines` | src/utils/langchain.js:143-156 | the same for any frame with fixed pieces |
| `Streaming.StreamChunks` | src/utils/langchain.js:52-56 | every chunk is written once, in order, and appended to the response |
| `Streaming.TryAttempt` | src/utils/langchain.js:48-70 | one attempt writes its output; it asks for a retry iff it failed with a stream-parse error and attempts remain, and otherwise returns or rethrows |
| `Streaming.GeminiStep` | src/utils/langchain.js:47-70 | attempt k extends the output by its writes, retries exactly on a parse failure with attempts left, and otherwise settles |
| `Streaming.QueryGemini` | src/utils/langchain.js:39-74 | no attempt iff retries ≤ 0, which throws "Max retries reached..."; at most `retries` attempts; all but the last were retryable; retry k waits 1000·(k+1) ms; the output is every attempt's writes in order; the last attempt decides the result |
| `Streaming.HandleToken` | src/utils/langchain.js:91-97 | the buffer grown by the token is written out whole, and emptied, exactly when it exceeds 20 characters or the token holds a newline; otherwise it is kept, and it never holds more than 20 characters or gains a newline |
| `Streaming.PendingOf` | src/utils/langchain.js:91-97 | a short newline-free buffer after the writes is a pending tail of what has arrived |
| `Streaming.FlushedInTimeExtend` | src/utils/langchain.js:95 | later writes do not change what each earlier callback had written |
| `Streaming.FlushedInTimeSnoc` | src/utils/langchain.js:91-97 | after the next callback only its short, newline-free buffer is unwritten |
| `Streaming.FlushesWhenDueExtend` | src/utils/langchain.js:95 | later writes do not change when each earlier callback wrote or what it had written by then |
| `Streaming.FlushedWhenDueLast` | src/utils/langchain.js:91-97 | a callback that writes exactly when more than 20 characters are unwritten or its token holds a newline, and then writes everything that has arrived, meets the per-callback flushing record |
| `Streaming.FlushesWhenDueSnoc` | src/utils/langchain.js:91-97 | recording one more such callback keeps the records of the earlier ones |
| `Streaming.Receive` | src/utils/langchain.js:91-97 | one callback keeps the buffering state: writes plus buffer are what has arrived, the buffer is short and newline-free, every write was due, at most one write per callback; it writes exactly when due, and a write leaves nothing of what has arrived unwritten |
| `Streaming.BufferingSnoc` | src/utils/langchain.js:91-97 | the same, for the state after any single due write or none |
| `Streaming.QueryOpenAI` | src/utils/langchain.js:77-110 | on success the writes reproduce the response exactly; on a rejection, the error is rethrown and at most 20 unflushed newline-free characters are lost; no empty write, and every write but the last exceeds 20 characters or holds a newline; by the end of each token's callback at most one write was made and at most 20 characters of what has arrived, none a newline, are still unwritten; a callback writes exactly when more than 20 characters are unwritten or its token holds a newline, and when it writes, everything that has arrived so far has been written |
| `Streaming.QueryLlm` | src/utils/langchain.js:24-37 | unrecognised providers fail with "Unsupported LLM provider: <name>" before any search; a failed search is rethrown before generation; Ollama returns its answer to the full prompt; OpenAI returns the streamed tokens; Gemini retries at most twice with the prescribed delays |
| `Text.Lower` | src/commands/ask.js:24 | same length, each character lowercased |
| `Ask.IsExitExactly` | src/commands/ask.js:24-26 | a line ends the session iff it is "exit" in any mix of cases, with nothing trimmed |
| `Ask.AskTurn` | src/commands/ask.js:22-37 | exit iff the line is "exit"; exit and a failed query leave the log as it was; an answered question ends the log with the answer and keeps it bounded |
| `Ask.Exchange` | src/commands/ask.js:29-33 | a successful query adds the question then the answer; a failed one adds nothing |
| `Ask.AnsweredPair` | src/commands/ask.js:31-32 | the two appends of a turn are one capped append of the pair |
| `Ask.TurnIsExchange` | src/commands/ask.js:28-37 | a non-exit turn's log is the last 20 entries of the old log and its exchange taken together, or the old log when the query failed |
| `Ask.Converse` | src/commands/ask.js:21-38 | the session stops right after the first exit line, or consumes all input when there is none |
| `Ask.RetypedQuestionCanSucceed` | src/commands/ask.js:28-37 | a question whose query failed, typed again under the unchanged log, can be answered, and only the answered asking is logged |
| `Ask.ConverseStep` | src/commands/ask.js:21-38 | a non-exit line adds its exchange before the rest of the session |
| `Ask.CapAfterTurn` | src/utils/conversationHistory.js:10-12 | capping after a turn and again after the later turns equals capping once |
| `Ask.ConverseKeepsNewest` | src/commands/ask.js:21-38 | after a session the log is the last 20 entries of the old log and the whole session transcript taken together |
| `Ask.AlternatingAppend` | src/commands/ask.js:31-32 | joining two alternating transcripts gives an alternating one |
| `Ask.ExchangeAlternates` | src/commands/ask.js:29-33 | one exchange alternates question and answer |
| `Ask.ConverseAlternates` | src/commands/ask.js:28-37 | a session's transcript strictly alternates question and answer, so no question is left unanswered |
| `Ask.RunAsk` | src/commands/ask.js:6-41 | an unsupported provider fails first; the store is built iff none exists, and a build error aborts; otherwise the session runs from the current log |

## Left out

- The LangChain, Google and OpenAI SDKs, FAISS and the network are outside the model. Searches and generations are scripted inputs, and embeddings are the settings object only.
- The `ignore` package's gitignore matching and `gpt-3-encoder`'s tokenizer are left abstract: each is a function-typed parameter.
- `path.relative` and `path.join` are modelled as joining with "/" from the root. Path normalisation is not modelled.
- The retry waits (`setTimeout`) are recorded as requested delays. No time passes.
- ANSI colour codes around the writes, `console.log`/`console.warn`/`console.error` output are not modelled. This includes the printed prompt, the scan summary and `queryOpenAI`'s trailing newline.
- `loadConfig`, `vectorStoreExists`, `loadVectorStore`, `clearVectorStore`, saving the index, and the `index`, `scan` and `clear` commands are not part of this model. Only the `exists` flag and the build outcome reach `Ask.RunAsk`.
- `queryOllama` is a pass-through of `invoke` on the full prompt, so it is an oracle.
- `readline` and the terminal are replaced by a list of input lines. Input that ends without "exit" simply ends the session.
- String lengths are counted in characters, not UTF-16 code units. This matters only for the 20-character flush threshold on astral-plane text.
- Text.Lower: lowercases ASCII letters only. JavaScript's `toLowerCase` also folds other scripts. One non-ASCII character does lowercase to a letter of "exit": 'İ' (U+0130) becomes "i̇", an 'i' followed by U+0307. The comparison with "exit" is unaffected only because that result is one character longer.
- VectorStore.ResolveLimit: takes the configured limit as an integer. Other falsy JavaScript values (NaN, "") behave like zero, and non-integer limits are not modelled.
- Streaming.QueryLlm: for Gemini it states only the number and length of the retry waits. What the result is, attempt by attempt, is the contract of `Streaming.QueryGemini`, called with the same prompt for every attempt.

=== FILE: ask.dfy ===
/** The interactive loop of ask.js, one question at a time.

    The answering side is an oracle standing for
    `queryLLM(genAI, question, getConversationHistory())` (see
    `Streaming.QueryLlm`); reading lines from the terminal is replaced by a
    list of the lines typed. */
module Ask {
  import opened Outcomes
  import opened Text
  import opened ConversationHistory
  import Providers
  import VectorStore

  /** `question.toLowerCase() === 'exit'`. */
  predicate IsExit(question: string)
  {
    Lower(question) == "exit"
  }

  /** Exactly the four-letter inputs spelling "exit" in any case end the
      loop; nothing is trimmed. */
  lemma IsExitExactly(question: string)
    ensures IsExit(question) <==>
              |question| == 4
              && question[0] in {'e', 'E'} && question[1] in {'x', 'X'}
              && question[2] in {'i', 'I'} && question[3] in {'t', 'T'}
  {
    if IsExit(question) {
      assert Lower(question)[0] == 'e' && Lower(question)[1] == 'x';
      assert Lower(question)[2] == 'i' && Lower(question)[3] == 't';
    }
    if |question| == 4 && question[0] in {'e', 'E'} && question[1] in {'x', 'X'}
       && question[2] in {'i', 'I'} && question[3] in {'t', 'T'} {
      assert Lower(question) == "exit";
    }
  }

  /** `llm(n, question, history)` is what `queryLLM` gives for the line read
      at position `n` of the session (counted from 0), asked with `history`.
      The position lets the same question under the same history meet a
      different outcome later, as after a transient network or API error. */
  type Oracle = (nat, string, History) -> Result<string>

  const HumanRole: string := "Human"
  const AiRole: string := "AI"

  datatype Turn = Exit(history: History) | Continue(history: History)

  /** One pass of the `while (true)` body. An exit input breaks without
      querying; otherwise the oracle is asked with the history as it was
      before this turn. On success the question and then the answer are
      appended; when the query throws, the error is reported and the history
      stays as it was. */
  function AskTurn(h: History, n: nat, question: string, llm: Oracle): (t: Turn)
    ensures t.Exit? <==> IsExit(question)
    ensures t.Exit? ==> t.history == h
    ensures !IsExit(question) && llm(n, question, h).Err? ==> t.history == h
    ensures !IsExit(question) && llm(n, question, h).Ok? ==>
              t.history != [] && t.history[|t.history| - 1] == Entry(AiRole, llm(n, question, h).value)
    ensures Bounded(h) ==> Bounded(t.history)
  {
    if IsExit(question) then Exit(h)
    else
      match llm(n, question, Get(h))
      case Ok(response) => Continue(Add(Add(h, HumanRole, question), AiRole, response))
      case Err(_) => Continue(h)
  }

  /** The entries one answered question adds: the question and the answer,
      or nothing when the query failed. */
  function Exchange(question: string, answer: Result<string>): (e: seq<Entry>)
    ensures answer.Ok? <==> e != []
    ensures answer.Ok? ==> e == [Entry(HumanRole, question), Entry(AiRole, answer.value)]
  {
    match answer
    case Ok(text) => [Entry(HumanRole, question), Entry(AiRole, text)]
    case Err(_) => []
  }

  /** The two appends of an answered question are one capped append of the
      pair. */
  lemma AnsweredPair(h: History, question: string, answer: string)
    ensures Add(Add(h, HumanRole, question), AiRole, answer)
            == LastN(h + [Entry(HumanRole, question), Entry(AiRole, answer)], MaxEntries)
  {
    var asked, answered := Entry(HumanRole, question), Entry(AiRole, answer);
    AddIsLastN(h, asked);
    AddIsLastN(Add(h, HumanRole, question), answered);
    LastNAppend(h + [asked], [answered], MaxEntries);
    assert (h + [asked]) + [answered] == h + [asked, answered];
  }

  /** A turn that does not exit appends its exchange to the log, capped. */
  lemma TurnIsExchange(h: History, n: nat, question: string, llm: Oracle)
    requires !IsExit(question)
    ensures AskTurn(h, n, question, llm).history
            == if llm(n, question, h).Ok? then LastN(h + Exchange(question, llm(n, question, h)), MaxEntries) else h
  {
    if llm(n, question, h).Ok? {
      AnsweredPair(h, question, llm(n, question, h).value);
    }
  }

  /** The turns of a session: the entries appended, how many inputs were
      consumed, and whether an exit ended it. */
  datatype Session = Session(history: History, transcript: seq<Entry>, consumed: nat, exited: bool)

  /** The loop over the typed lines, from the line at position `n` on,
      stopping at the first exit input. */
  function Converse(h: History, n: nat, inputs: seq<string>, llm: Oracle): (s: Session)
    ensures s.consumed <= |inputs|
    ensures s.exited ==> s.consumed > 0 && IsExit(inputs[s.consumed - 1])
    ensures !s.exited ==> s.consumed == |inputs|
    ensures forall k :: 0 <= k < s.consumed - 1 || (0 <= k < s.consumed && !s.exited) ==> !IsExit(inputs[k])
    decreases |inputs|
  {
    if inputs == [] then Session(h, [], 0, false)
    else if IsExit(inputs[0]) then Session(h, [], 1, true)
    else
      var rest := Converse(AskTurn(h, n, inputs[0], llm).history, n + 1, inputs[1..], llm);
      Session(rest.history, Exchange(inputs[0], llm(n, inputs[0], h)) + rest.transcript, rest.consumed + 1, rest.exited)
  }

  /** Unfolding one answered or failed turn of a session. */
  lemma ConverseStep(h: History, n: nat, inputs: seq<string>, llm: Oracle)
    requires inputs != [] && !IsExit(inputs[0])
    ensures var rest := Converse(AskTurn(h, n, inputs[0], llm).history, n + 1, inputs[1..], llm);
            Converse(h, n, inputs, llm).history == rest.history
            && Converse(h, n, inputs, llm).transcript == Exchange(inputs[0], llm(n, inputs[0], h)) + rest.transcript
  {
  }

  /** A failed query does not doom the question: typed again under the
      unchanged log, it may be answered, and then only that answered asking
      is logged. */
  lemma RetypedQuestionCanSucceed(h: History, question: string, answer: string, llm: Oracle)
    requires !IsExit(question)
    requires llm(0, question, h).Err? && llm(1, question, h) == Ok(answer)
    ensures Converse(h, 0, [question, question], llm).transcript == [Entry(HumanRole, question), Entry(AiRole, answer)]
    ensures Converse(h, 0, [question, question], llm).history == Add(Add(h, HumanRole, question), AiRole, answer)
  {
    ConverseStep(h, 0, [question, question], llm);
    assert [question, question][1..] == [question];
    ConverseStep(h, 1, [question], llm);
  }

  /** One step of the session argument: capping after a turn and again
      after the later turns is capping once after all of them. */
  lemma CapAfterTurn(h: History, turn: seq<Entry>, later: seq<Entry>, h1: History)
    requires h1 == if turn == [] then h else LastN(h + turn, MaxEntries)
    ensures LastN(h1 + later, MaxEntries) == LastN(h + (turn + later), MaxEntries)
  {
    assert h + (turn + later) == (h + turn) + later;
    if turn != [] {
      LastNAppend(h + turn, later, MaxEntries);
    }
  }

  /** Over a whole session the log is the last 20 entries of the starting log
      and every question and answer of the session taken together, in order. */
  lemma {:induction false} ConverseKeepsNewest(h: History, n: nat, inputs: seq<string>, llm: Oracle)
    requires Bounded(h)
    ensures Converse(h, n, inputs, llm).history == LastN(h + Converse(h, n, inputs, llm).transcript, MaxEntries)
    decreases |inputs|
  {
    if inputs == [] || IsExit(inputs[0]) {
      assert h + Converse(h, n, inputs, llm).transcript == h;
    } else {
      var q := inputs[0];
      var h1 := AskTurn(h, n, q, llm).history;
      var turn := Exchange(q, llm(n, q, h));
      var rest := Converse(h1, n + 1, inputs[1..], llm);
      ConverseStep(h, n, inputs, llm);
      TurnIsExchange(h, n, q, llm);
      ConverseKeepsNewest(h1, n + 1, inputs[1..], llm);
      CapAfterTurn(h, turn, rest.transcript, h1);
    }
  }

  /** Question, answer, question, answer, ..., ending on an answer. */
  predicate Alternating(t: seq<Entry>)
  {
    |t| % 2 == 0 && forall k :: 0 <= k < |t| ==> t[k].role == if k % 2 == 0 then HumanRole else AiRole
  }

  lemma AlternatingAppend(a: seq<Entry>, b: seq<Entry>)
    requires Alternating(a) && Alternating(b)
    ensures Alternating(a + b)
  {
    forall k | |a| <= k < |a + b|
      ensures (a + b)[k].role == if k % 2 == 0 then HumanRole else AiRole
    {
      assert (a + b)[k] == b[k - |a|];
      assert (k - |a|) % 2 == k % 2;
    }
  }

  lemma ExchangeAlternates(question: string, answer: Result<string>)
    ensures Alternating(Exchange(question, answer))
  {
  }

  /** The session's log additions alternate question and answer: a failed
      query leaves no unanswered question behind. */
  lemma {:induction false} ConverseAlternates(h: History, n: nat, inputs: seq<string>, llm: Oracle)
    ensures Alternating(Converse(h, n, inputs, llm).transcript)
    decreases |inputs|
  {
    if inputs != [] && !IsExit(inputs[0]) {
      var h1 := AskTurn(h, n, inputs[0], llm).history;
      var turn := Exchange(inputs[0], llm(n, inputs[0], h));
      ConverseStep(h, n, inputs, llm);
      ConverseAlternates(h1, n + 1, inputs[1..], llm);
      ExchangeAlternates(inputs[0], llm(n, inputs[0], h));
      AlternatingAppend(turn, Converse(h1, n + 1, inputs[1..], llm).transcript);
    }
  }

  /** The outcome of `ask()` up to the first exit or the end of the input. */
  datatype AskRun = AskRun(builtStore: bool, session: Session)

  /** `ask()`: the client is initialised first (an unsupported provider
      throws before anything else); the store is built once, before the loop,
      only when none exists (`build` is what `createVectorStore` would
      produce); then the loop runs from the process's current log `h`. */
  function RunAsk(config: Providers.LlmConfig, storeExists: bool, build: Result<VectorStore.Build>,
                  h: History, inputs: seq<string>, llm: Oracle): (r: Result<AskRun>)
    ensures Providers.Recognise(config.provider).None? ==> r == Err(Providers.UnsupportedProvider(config.provider))
    ensures r.Ok? ==> r.value.builtStore == !storeExists
    ensures r.Err? && Providers.Recognise(config.provider).Some? ==> !storeExists && build.Err? && r.error == build.error
    ensures r.Ok? ==> r.value.session == Converse(h, 0, inputs, llm)
  {
    match Providers.InitializeLlm(config)
    case Err(e) => Err(e)
    case Ok(_) =>
      if !storeExists && build.Err? then Err(build.error)
      else Ok(AskRun(!storeExists, Converse(h, 0, inputs, llm)))
  }
}

=== FILE: history.dfy ===
/** The module-level conversation log of conversationHistory.js, as a value.
    `getConversationHistory`, `addToConversationHistory` and
    `clearConversationHistory` become pure functions from the old log to the
    new one. */
module ConversationHistory {

  datatype Entry = Entry(role: string, content: string)

  type History = seq<Entry>

  /** The length the code truncates to. (The comment next to it says 10.) */
  const MaxEntries: nat := 20

  predicate Bounded(h: History)
  {
    |h| <= MaxEntries
  }

  /** The last `n` elements of `s` (all of them when there are fewer), what
      `s.slice(-n)` returns for a positive `n`. */
  function LastN<T>(s: seq<T>, n: nat): (r: seq<T>)
    ensures |r| == if |s| <= n then |s| else n
    ensures s == s[..|s| - |r|] + r
  {
    if |s| <= n then s else s[|s| - n..]
  }

  /** The starting log of a session, and what `clearConversationHistory`
      leaves. */
  function Clear(): (h: History)
    ensures |h| == 0
  {
    []
  }

  /** `getConversationHistory`: the current log, unchanged. */
  function Get(h: History): (r: History)
    ensures r == h
  {
    h
  }

  /** `addToConversationHistory(role, content)`: push, then keep the last 20
      when the log has grown past 20. */
  function Add(h: History, role: string, content: string): (r: History)
    ensures Bounded(r)
    ensures r != [] && r[|r| - 1] == Entry(role, content)
    ensures |h| < MaxEntries ==> r == h + [Entry(role, content)]
    ensures |h| >= MaxEntries ==> |r| == MaxEntries
    ensures (h + [Entry(role, content)]) == (h + [Entry(role, content)])[..|h| + 1 - |r|] + r
  {
    var pushed := h + [Entry(role, content)];
    if |pushed| > MaxEntries then pushed[|pushed| - MaxEntries..] else pushed
  }

  /** Appending entries one call at a time. */
  function AddAll(h: History, entries: seq<Entry>): History
    decreases |entries|
  {
    if entries == [] then h
    else AddAll(Add(h, entries[0].role, entries[0].content), entries[1..])
  }

  /** One append gives the last 20 entries of the old log and the new entry
      taken together. */
  lemma AddIsLastN(h: History, e: Entry)
    ensures Add(h, e.role, e.content) == LastN(h + [e], MaxEntries)
  {
  }

  /** The log after any run of appends to a bounded log is the last 20
      entries of the old log and everything appended, taken together: eviction drops only the oldest
      entries and the survivors keep their order. */
  lemma {:induction false} AddAllKeepsNewest(h: History, entries: seq<Entry>)
    ensures entries != [] ==> AddAll(h, entries) == LastN(h + entries, MaxEntries)
    decreases |entries|
  {
    if entries != [] {
      var e := entries[0];
      var h1 := Add(h, e.role, e.content);
      AddIsLastN(h, e);
      var rest := entries[1..];
      assert (h + [e]) + rest == h + entries;
      if rest == [] {
        assert h + entries == h + [e];
      } else {
        AddAllKeepsNewest(h1, rest);
        LastNAppend(h + [e], rest, MaxEntries);
      }
    }
  }

  /** Truncating before appending more and truncating afterwards agree. */
  lemma LastNAppend<T>(a: seq<T>, b: seq<T>, n: nat)
    ensures LastN(LastN(a, n) + b, n) == LastN(a + b, n)
  {
    var la := LastN(a, n);
    if |a| > n {
      var ab := a + b;
      var lab := la + b;
      assert la == a[|a| - n..];
      if |lab| > n {
        assert lab[|lab| - n..] == ab[|ab| - n..];
      } else {
        assert b == [];
        assert ab == a;
      }
    }
  }
}

=== FILE: outcomes.dfy ===
/** Failure-carrying values shared by every module of the model.

    JavaScript signals failure by throwing; the model returns `Err` instead and
    carries what the thrown value would have said. */
module Outcomes {

  /** What a thrown error carries. `Message` is an `Error` built from a string
      (by this code or by an SDK); the two `Unreadable` variants stand for the
      rejections of `fs.readdir` and `fs.readFile`, whose text comes from the
      operating system and is not modelled. */
  datatype Error =
    | Message(text: string)
    | DirectoryUnreadable(path: string)
    | FileUnreadable(path: string)

  datatype Option<+T> = None | Some(value: T)

  datatype Result<+T> = Ok(value: T) | Err(error: Error)
}

=== FILE: prompts.dfy ===
/** The string builders of langchain.js: `formatConversationHistory`, the
    context concatenation of `buildContext` and `constructFullPrompt`. */
module Prompts {
  import opened Text
  import opened ConversationHistory
  import VectorStore

  /** One log entry as `${item.role}: ${item.content}`. */
  function EntryLine(e: Entry): string
  {
    e.role + ": " + e.content
  }

  function EntryLines(h: History): (lines: seq<string>)
    ensures |lines| == |h|
    ensures forall k :: 0 <= k < |h| ==> lines[k] == EntryLine(h[k])
  {
    if h == [] then [] else [EntryLine(h[0])] + EntryLines(h[1..])
  }

  /** `history.map(...).join('\n')`. */
  function FormatConversationHistory(h: History): (r: string)
    ensures h == [] ==> r == ""
    ensures |h| == 1 ==> r == EntryLine(h[0])
  {
    Join(EntryLines(h), "\n")
  }

  /** Entries are rendered oldest first: one more entry appends exactly one
      newline and its line to the rendering of the earlier ones. */
  lemma FormatAppend(h: History, e: Entry)
    requires h != []
    ensures FormatConversationHistory(h + [e]) == FormatConversationHistory(h) + "\n" + EntryLine(e)
  {
    assert EntryLines(h + [e]) == EntryLines(h) + [EntryLine(e)];
    JoinSnoc(EntryLines(h), "\n", EntryLine(e));
  }

  // ------------------------------------------------------------- context

  /** The query and count `buildContext` passes to `similaritySearch`: the
      empty string (not the user's question) and 10. */
  const SearchQuery: string := ""
  const SearchCount: nat := 10

  /** `File: ${source}\n${pageContent}\n\n` */
  function ContextBlock(d: VectorStore.Document): string
  {
    "File: " + d.source + "\n" + d.pageContent + "\n\n"
  }

  /** The concatenation loop of `buildContext`; its length cap is commented
      out in the code, so every retrieved document is kept whole. */
  function BuildContext(docs: seq<VectorStore.Document>): (context: string)
    ensures docs == [] ==> context == ""
    ensures |docs| == 1 ==> context == ContextBlock(docs[0])
  {
    if docs == [] then "" else ContextBlock(docs[0]) + BuildContext(docs[1..])
  }

  /** Retrieval order is kept: the context of a list is the context of its
      first part followed by the context of the rest. */
  lemma {:induction false} BuildContextAppend(a: seq<VectorStore.Document>, b: seq<VectorStore.Document>)
    ensures BuildContext(a + b) == BuildContext(a) + BuildContext(b)
  {
    if a == [] {
      assert a + b == b;
    } else {
      assert (a + b)[1..] == a[1..] + b;
      BuildContextAppend(a[1..], b);
    }
  }

  function BlocksLength(docs: seq<VectorStore.Document>): nat
  {
    if docs == [] then 0 else |ContextBlock(docs[0])| + BlocksLength(docs[1..])
  }

  /** Nothing is truncated or dropped: the context is exactly as long as all
      blocks together. */
  lemma {:induction false} BuildContextUncapped(docs: seq<VectorStore.Document>)
    ensures |BuildContext(docs)| == BlocksLength(docs)
  {
    if docs != [] {
      BuildContextUncapped(docs[1..]);
    }
  }

  // -------------------------------------------------------------- prompt

  const Header: string :=
    "\n    Use the following context and optionally conversation history if it is not empty to"
    + "\n    answer the question in detail and easy to understand language. Format your response"
    + "\n    for command-line display: use plain text only, avoid special formatting like markdown"
    + "\n    or HTML, and structure information with simple indentation or line breaks if needed."
    + "\n\n    Context:\n    "
  const HistoryLabel: string := "\n\n    Conversation history:\n    "
  const QuestionLabel: string := "\n\n    Question: "
  const AnswerLabel: string := "\n    Answer:"

  /** `p` is `a`, `x`, `b`, `y`, `c`, `z` and `d` laid end to end: it has
      their total length and each piece sits at its own offset. */
  predicate Framed(p: string, a: string, x: string, b: string, y: string, c: string, z: string, d: string)
  {
    && |p| == |a| + |x| + |b| + |y| + |c| + |z| + |d|
    && p[..|a|] == a
    && p[|a|..|a| + |x|] == x
    && p[|a| + |x|..|a| + |x| + |b|] == b
    && p[|a| + |x| + |b|..|a| + |x| + |b| + |y|] == y
    && p[|a| + |x| + |b| + |y|..|p| - |d| - |z|] == c
    && p[|p| - |d| - |z|..|p| - |d|] == z
    && p[|p| - |d|..] == d
  }

  /** The template's frame around three texts: `a`, then `x`, then `b`,
      then `y`, then `c`, then `z`, then `d`. */
  function Frame(a: string, x: string, b: string, y: string, c: string, z: string, d: string): (p: string)
    ensures Framed(p, a, x, b, y, c, z, d)
  {
    var p := a + x + b + y + c + z + d;
    assert p == a + (x + (b + (y + (c + (z + d)))));
    p
  }

  /** `constructFullPrompt`: the instructions, the context, the conversation
      history label, the history, the question label, the question and the
      answer label, in that order, with nothing between them. */
  function ConstructFullPrompt(context: string, history: string, question: string): (p: string)
    ensures Framed(p, Header, context, HistoryLabel, history, QuestionLabel, question, AnswerLabel)
  {
    Frame(Header, context, HistoryLabel, history, QuestionLabel, question, AnswerLabel)
  }

  /** The prompt determines its parts once the lengths of the context and
      the history are known: nothing is lost or merged. */
  lemma PromptDeterminesParts(c1: string, h1: string, q1: string, c2: string, h2: string, q2: string)
    requires |c1| == |c2| && |h1| == |h2|
    requires ConstructFullPrompt(c1, h1, q1) == ConstructFullPrompt(c2, h2, q2)
    ensures c1 == c2 && h1 == h2 && q1 == q2
  {
    FrameDetermines(Header, c1, HistoryLabel, h1, QuestionLabel, q1, AnswerLabel, c2, h2, q2);
  }

  /** A frame with fixed pieces determines the texts it holds once the
      lengths of the first two are fixed. */
  lemma FrameDetermines(a: string, x1: string, b: string, y1: string, c: string, z1: string, d: string,
                        x2: string, y2: string, z2: string)
    requires |x1| == |x2| && |y1| == |y2|
    requires Frame(a, x1, b, y1, c, z1, d) == Frame(a, x2, b, y2, c, z2, d)
    ensures x1 == x2 && y1 == y2 && z1 == z2
  {
    var p := Frame(a, x1, b, y1, c, z1, d);
    assert x1 == p[|a|..|a| + |x1|] == x2;
    assert y1 == p[|a| + |x1| + |b|..|a| + |x1| + |b| + |y1|] == y2;
    assert z1 == p[|p| - |d| - |z1|..|p| - |d|] == z2;
  }
}

=== FILE: providers.dfy ===
/** The provider switch that appears three times in the code: `getEmbeddings`
    in vectorStore.js and `initializeLLM` / `queryLLM` in langchain.js. Each
    accepts exactly the names "gemini", "openai" and "ollama" and throws for
    anything else; the recognition is defined once here. */
module Providers {
  import opened Outcomes

  datatype Provider = Gemini | OpenAI | Ollama

  /** The configuration keys the three switches read. */
  datatype LlmConfig = LlmConfig(
    provider: string,
    apiKey: string,
    modelName: string,
    embeddingModelName: string)

  function Name(p: Provider): string
  {
    match p
    case Gemini => "gemini"
    case OpenAI => "openai"
    case Ollama => "ollama"
  }

  /** Recognises a configured provider name; the match is exact and
      case-sensitive, as a JavaScript `switch` on strings is. */
  function Recognise(name: string): (r: Option<Provider>)
    ensures r.Some? <==> name == "gemini" || name == "openai" || name == "ollama"
    ensures r.Some? ==> Name(r.value) == name
  {
    if name == "gemini" then Some(Gemini)
    else if name == "openai" then Some(OpenAI)
    else if name == "ollama" then Some(Ollama)
    else None
  }

  /** Naming a provider and recognising the name gives the provider back. */
  lemma RecogniseName(p: Provider)
    ensures Recognise(Name(p)) == Some(p)
  {
  }

  /** The embeddings object `getEmbeddings` constructs, with the settings it
      passes. */
  datatype Embeddings =
    | GoogleGenerativeAIEmbeddings(apiKey: string, modelName: string)
    | OpenAIEmbeddings(apiKey: string, model: string)
    | OllamaEmbeddings(model: string)

  function EmbeddingsError(provider: string): Error
  {
    Message("Unsupported LLM provider for embeddings: " + provider)
  }

  function GetEmbeddings(config: LlmConfig): (r: Result<Embeddings>)
    ensures r.Ok? <==> Recognise(config.provider).Some?
    ensures r.Err? ==> r.error == EmbeddingsError(config.provider)
    ensures r.Ok? ==> match Recognise(config.provider).value
      case Gemini => r.value == GoogleGenerativeAIEmbeddings(config.apiKey, config.embeddingModelName)
      case OpenAI => r.value == OpenAIEmbeddings(config.apiKey, config.embeddingModelName)
      case Ollama => r.value == OllamaEmbeddings(config.embeddingModelName)
  {
    match config.provider
    case "gemini" => Ok(GoogleGenerativeAIEmbeddings(config.apiKey, config.embeddingModelName))
    case "openai" => Ok(OpenAIEmbeddings(config.apiKey, config.embeddingModelName))
    case "ollama" => Ok(OllamaEmbeddings(config.embeddingModelName))
    case _ => Err(EmbeddingsError(config.provider))
  }

  /** The client object `initializeLLM` constructs. The Gemini client carries
      only the key; its model is chosen per query from `model_name`. */
  datatype Client =
    | GoogleGenerativeAI(apiKey: string)
    | OpenAIClient(apiKey: string, modelName: string)
    | OllamaClient(model: string)

  function UnsupportedProvider(provider: string): Error
  {
    Message("Unsupported LLM provider: " + provider)
  }

  function InitializeLlm(config: LlmConfig): (r: Result<Client>)
    ensures r.Ok? <==> Recognise(config.provider).Some?
    ensures r.Err? ==> r.error == UnsupportedProvider(config.provider)
    ensures r.Ok? ==> match Recognise(config.provider).value
      case Gemini => r.value == GoogleGenerativeAI(config.apiKey)
      case OpenAI => r.value == OpenAIClient(config.apiKey, config.modelName)
      case Ollama => r.value == OllamaClient(config.modelName)
  {
    match config.provider
    case "gemini" => Ok(GoogleGenerativeAI(config.apiKey))
    case "openai" => Ok(OpenAIClient(config.apiKey, config.modelName))
    case "ollama" => Ok(OllamaClient(config.modelName))
    case _ => Err(UnsupportedProvider(config.provider))
  }
}

=== FILE: scan_order.dfy ===
/** An independent description of what the scan of vectorStore.js computes.

    `Flatten` lists, in depth-first listing order, one `Step` per entry the
    walk would list: its tree line and what the walk then does with it. `Run`
    performs the steps one after another with the budget check. The walk is
    shown to be exactly `Run` of `Flatten`; from that the accepted documents
    are characterised as the longest prefix of the eligible files whose token
    sum fits the limit. */
module ScanOrder {
  import opened Outcomes
  import opened VectorStore

  /** A file the walk would offer to the budget. */
  datatype Candidate = Candidate(name: string, doc: Document, tokens: nat)

  datatype Action = Listed | Offer(candidate: Candidate) | Fail(error: Error)

  datatype Step = Step(line: string, action: Action)

  function Flatten(cfg: ScanConfig, dirPath: string, prefix: string, entries: seq<Node>, i: nat): seq<Step>
    requires i <= |entries|
    decreases entries, |entries| - i
  {
    if i == |entries| then []
    else
      var relativePath := RelPath(dirPath, entries[i].name);
      var own := if cfg.ignores(relativePath) then []
        else EntrySteps(cfg, relativePath, prefix, i == |entries| - 1, entries[i]);
      own + Flatten(cfg, dirPath, prefix, entries, i + 1)
  }

  /** The steps of one listed entry: its own line, then (for a directory) the
      steps of its listing. */
  function EntrySteps(cfg: ScanConfig, relativePath: string, prefix: string, isLast: bool, entry: Node): seq<Step>
    decreases entry
  {
    var line := Line(prefix, isLast, entry.name);
    match entry
    case Dir(_, children) =>
      [Step(line, Listed)] + Flatten(cfg, relativePath, prefix + ChildIndent(isLast), children, 0)
    case UnreadableDir(_) => [Step(line, Fail(DirectoryUnreadable(relativePath)))]
    case File(name, content) =>
      if Allowed(cfg.extensions, name)
      then [Step(line, Offer(Candidate(name, Document(content, relativePath, FileType(name)), cfg.tokens(content))))]
      else [Step(line, Listed)]
    case UnreadableFile(name) =>
      if Allowed(cfg.extensions, name) then [Step(line, Fail(FileUnreadable(relativePath)))]
      else [Step(line, Listed)]
    case Special(_) => [Step(line, Listed)]
  }

  /** Performs `steps` in order: each step's line is listed; an offered file
      is accepted while it fits the limit and stops the run when it does not;
      a failure ends the run. */
  function Run(limit: int, steps: seq<Step>, st: ScanState): Walked
  {
    if steps == [] then Walked(false, st)
    else
      var listed := st.(tree := st.tree + steps[0].line);
      match steps[0].action
      case Listed => Run(limit, steps[1..], listed)
      case Fail(e) => ReadFailed(e)
      case Offer(c) =>
        if listed.totalTokens + c.tokens > limit then Walked(true, listed)
        else Run(limit, steps[1..], listed.(documents := listed.documents + [c.doc],
                                            totalTokens := listed.totalTokens + c.tokens))
  }

  /** Continues a finished run with more steps, as an enclosing `walkDir`
      continues after a subdirectory. */
  function Then(limit: int, w: Walked, more: seq<Step>): Walked
  {
    if w.ReadFailed? || w.reachedLimit then w else Run(limit, more, w.state)
  }

  lemma {:induction false} RunAppend(limit: int, a: seq<Step>, b: seq<Step>, st: ScanState)
    ensures Run(limit, a + b, st) == Then(limit, Run(limit, a, st), b)
    decreases |a|
  {
    if a == [] {
      assert a + b == b;
    } else {
      assert (a + b)[0] == a[0];
      assert (a + b)[1..] == a[1..] + b;
      var listed := st.(tree := st.tree + a[0].line);
      match a[0].action
      case Listed => RunAppend(limit, a[1..], b, listed);
      case Fail(e) =>
      case Offer(c) =>
        if listed.totalTokens + c.tokens <= limit {
          RunAppend(limit, a[1..], b, listed.(documents := listed.documents + [c.doc],
                                              totalTokens := listed.totalTokens + c.tokens));
        }
    }
  }

  /** The walk of vectorStore.js performs exactly the flattened steps. */
  lemma {:induction false} WalkIsRun(cfg: ScanConfig, dirPath: string, prefix: string, entries: seq<Node>, i: nat, st: ScanState)
    requires i <= |entries|
    ensures Walk(cfg, dirPath, prefix, entries, i, st) == Run(cfg.limit, Flatten(cfg, dirPath, prefix, entries, i), st)
    decreases entries, |entries| - i, 2
  {
    if i < |entries| {
      var relativePath := RelPath(dirPath, entries[i].name);
      var rest := Flatten(cfg, dirPath, prefix, entries, i + 1);
      if cfg.ignores(relativePath) {
        assert Flatten(cfg, dirPath, prefix, entries, i) == [] + rest == rest;
        WalkIsRun(cfg, dirPath, prefix, entries, i + 1, st);
      } else {
        var own := EntrySteps(cfg, relativePath, prefix, i == |entries| - 1, entries[i]);
        RunAppend(cfg.limit, own, rest, st);
        if entries[i].Dir? {
          WalkIsRunDir(cfg, dirPath, prefix, entries, i, st);
        } else {
          WalkIsRunLeaf(cfg, dirPath, prefix, entries, i, st);
        }
      }
    }
  }

  /** A listed directory: the walk of its listing, then (unless that stopped)
      the rest of the enclosing listing. */
  lemma {:induction false} WalkIsRunDir(cfg: ScanConfig, dirPath: string, prefix: string, entries: seq<Node>, i: nat, st: ScanState)
    requires i < |entries| && entries[i].Dir? && !cfg.ignores(RelPath(dirPath, entries[i].name))
    ensures Walk(cfg, dirPath, prefix, entries, i, st)
            == Then(cfg.limit, Run(cfg.limit, EntrySteps(cfg, RelPath(dirPath, entries[i].name), prefix, i == |entries| - 1, entries[i]), st),
                    Flatten(cfg, dirPath, prefix, entries, i + 1))
    decreases entries, |entries| - i, 1
  {
    var entry := entries[i];
    var relativePath := RelPath(dirPath, entry.name);
    var isLast := i == |entries| - 1;
    var line := Line(prefix, isLast, entry.name);
    var listed := st.(tree := st.tree + line);
    var inner := Flatten(cfg, relativePath, prefix + ChildIndent(isLast), entry.children, 0);
    ListedStep(cfg.limit, line, inner, st);
    WalkIsRun(cfg, relativePath, prefix + ChildIndent(isLast), entry.children, 0, listed);
    var sub := Walk(cfg, relativePath, prefix + ChildIndent(isLast), entry.children, 0, listed);
    if !(sub.ReadFailed? || sub.reachedLimit) {
      WalkIsRun(cfg, dirPath, prefix, entries, i + 1, sub.state);
    }
  }

  /** A listed entry that is not a directory contributes its one step. */
  lemma {:induction false} WalkIsRunLeaf(cfg: ScanConfig, dirPath: string, prefix: string, entries: seq<Node>, i: nat, st: ScanState)
    requires i < |entries| && !entries[i].Dir? && !cfg.ignores(RelPath(dirPath, entries[i].name))
    ensures Walk(cfg, dirPath, prefix, entries, i, st)
            == Then(cfg.limit, Run(cfg.limit, EntrySteps(cfg, RelPath(dirPath, entries[i].name), prefix, i == |entries| - 1, entries[i]), st),
                    Flatten(cfg, dirPath, prefix, entries, i + 1))
    decreases entries, |entries| - i, 1
  {
    var entry := entries[i];
    if entry.File? && Allowed(cfg.extensions, entry.name) {
      WalkIsRunOffer(cfg, dirPath, prefix, entries, i, st);
    } else if entry.UnreadableDir? || (entry.UnreadableFile? && Allowed(cfg.extensions, entry.name)) {
      var own := EntrySteps(cfg, RelPath(dirPath, entry.name), prefix, i == |entries| - 1, entry);
      assert own[0].action.Fail?;
    } else {
      WalkIsRunListed(cfg, dirPath, prefix, entries, i, st);
    }
  }

  lemma {:induction false} WalkIsRunOffer(cfg: ScanConfig, dirPath: string, prefix: string, entries: seq<Node>, i: nat, st: ScanState)
    requires i < |entries| && entries[i].File? && Allowed(cfg.extensions, entries[i].name)
    requires !cfg.ignores(RelPath(dirPath, entries[i].name))
    ensures Walk(cfg, dirPath, prefix, entries, i, st)
            == Then(cfg.limit, Run(cfg.limit, EntrySteps(cfg, RelPath(dirPath, entries[i].name), prefix, i == |entries| - 1, entries[i]), st),
                    Flatten(cfg, dirPath, prefix, entries, i + 1))
    decreases entries, |entries| - i, 0
  {
    var entry := entries[i];
    var relativePath := RelPath(dirPath, entry.name);
    var line := Line(prefix, i == |entries| - 1, entry.name);
    var listed := st.(tree := st.tree + line);
    var own := EntrySteps(cfg, relativePath, prefix, i == |entries| - 1, entry);
    var c := Candidate(entry.name, Document(entry.content, relativePath, FileType(entry.name)), cfg.tokens(entry.content));
    OfferSteps(cfg, relativePath, prefix, i == |entries| - 1, entry);
    var next := listed.(documents := listed.documents + [c.doc], totalTokens := listed.totalTokens + c.tokens);
    WalkAtOffer(cfg, dirPath, prefix, entries, i, st);
    assert own[0] == Step(line, Offer(c)) && own[1..] == [];
    if listed.totalTokens + c.tokens <= cfg.limit {
      assert Run(cfg.limit, own, st) == Walked(false, next);
      WalkIsRun(cfg, dirPath, prefix, entries, i + 1, next);
    } else {
      assert Run(cfg.limit, own, st) == Walked(true, listed);
    }
  }

  /** The one step of an allowed, readable file: its line and its offer. */
  lemma OfferSteps(cfg: ScanConfig, relativePath: string, prefix: string, isLast: bool, entry: Node)
    requires entry.File? && Allowed(cfg.extensions, entry.name)
    ensures EntrySteps(cfg, relativePath, prefix, isLast, entry)
            == [Step(Line(prefix, isLast, entry.name),
                     Offer(Candidate(entry.name, Document(entry.content, relativePath, FileType(entry.name)), cfg.tokens(entry.content))))]
  {
  }

  /** One unfolding of `Walk` at an allowed, readable, non-ignored file. */
  lemma WalkAtOffer(cfg: ScanConfig, dirPath: string, prefix: string, entries: seq<Node>, i: nat, st: ScanState)
    requires i < |entries| && entries[i].File? && Allowed(cfg.extensions, entries[i].name)
    requires !cfg.ignores(RelPath(dirPath, entries[i].name))
    ensures var listed := st.(tree := st.tree + Line(prefix, i == |entries| - 1, entries[i].name));
            var tokens := cfg.tokens(entries[i].content);
            var doc := Document(entries[i].content, RelPath(dirPath, entries[i].name), FileType(entries[i].name));
            Walk(cfg, dirPath, prefix, entries, i, st)
            == if listed.totalTokens + tokens > cfg.limit then Walked(true, listed)
               else Walk(cfg, dirPath, prefix, entries, i + 1,
                         listed.(documents := listed.documents + [doc], totalTokens := listed.totalTokens + tokens))
  {
  }

  lemma {:induction false} WalkIsRunListed(cfg: ScanConfig, dirPath: string, prefix: string, entries: seq<Node>, i: nat, st: ScanState)
    requires i < |entries| && !entries[i].Dir? && !entries[i].UnreadableDir?
    requires entries[i].File? || entries[i].UnreadableFile? ==> !Allowed(cfg.extensions, entries[i].name)
    requires !cfg.ignores(RelPath(dirPath, entries[i].name))
    ensures Walk(cfg, dirPath, prefix, entries, i, st)
            == Then(cfg.limit, Run(cfg.limit, EntrySteps(cfg, RelPath(dirPath, entries[i].name), prefix, i == |entries| - 1, entries[i]), st),
                    Flatten(cfg, dirPath, prefix, entries, i + 1))
    decreases entries, |entries| - i, 0
  {
    var entry := entries[i];
    var line := Line(prefix, i == |entries| - 1, entry.name);
    var listed := st.(tree := st.tree + line);
    var own := EntrySteps(cfg, RelPath(dirPath, entry.name), prefix, i == |entries| - 1, entry);
    assert own == [Step(line, Listed)];
    assert Run(cfg.limit, own, st) == Run(cfg.limit, [], listed);
    WalkIsRun(cfg, dirPath, prefix, entries, i + 1, listed);
  }

  lemma ListedStep(limit: int, line: string, rest: seq<Step>, st: ScanState)
    ensures Run(limit, [Step(line, Listed)] + rest, st) == Run(limit, rest, st.(tree := st.tree + line))
  {
    assert ([Step(line, Listed)] + rest)[1..] == rest;
  }

  /** Every entry that is not ignored is listed before anything else happens
      to it, with the last-entry connector exactly when it is the last entry
      of the raw listing (ignored entries included); so the file whose tokens
      trip the budget is listed too. */
  lemma WalkListsEntryFirst(cfg: ScanConfig, dirPath: string, prefix: string, entries: seq<Node>, i: nat, st: ScanState)
    requires i < |entries| && !cfg.ignores(RelPath(dirPath, entries[i].name))
    ensures Walk(cfg, dirPath, prefix, entries, i, st).Walked? ==>
              st.tree + Line(prefix, i == |entries| - 1, entries[i].name) <= Walk(cfg, dirPath, prefix, entries, i, st).state.tree
  {
    var steps := Flatten(cfg, dirPath, prefix, entries, i);
    var own := EntrySteps(cfg, RelPath(dirPath, entries[i].name), prefix, i == |entries| - 1, entries[i]);
    EntryStepsStartWithLine(cfg, RelPath(dirPath, entries[i].name), prefix, i == |entries| - 1, entries[i]);
    assert steps == own + Flatten(cfg, dirPath, prefix, entries, i + 1);
    assert steps[0] == own[0];
    WalkIsRun(cfg, dirPath, prefix, entries, i, st);
    RunListsFirst(cfg.limit, steps, st);
  }

  lemma EntryStepsStartWithLine(cfg: ScanConfig, relativePath: string, prefix: string, isLast: bool, entry: Node)
    ensures EntrySteps(cfg, relativePath, prefix, isLast, entry) != []
    ensures EntrySteps(cfg, relativePath, prefix, isLast, entry)[0].line == Line(prefix, isLast, entry.name)
  {
  }

  /** A run that returns has listed its first step's line first. */
  lemma RunListsFirst(limit: int, steps: seq<Step>, st: ScanState)
    requires steps != []
    ensures Run(limit, steps, st).Walked? ==> st.tree + steps[0].line <= Run(limit, steps, st).state.tree
  {
    RunListing(limit, steps, st);
    var r := Run(limit, steps, st);
    if r.Walked? {
      var n :| 0 <= n <= |steps| && r.state.tree == st.tree + Lines(steps[..n])
               && (r.reachedLimit ==> n > 0) && (!r.reachedLimit ==> n == |steps|);
      assert Lines(steps[..n]) == steps[0].line + Lines(steps[..n][1..]);
      assert r.state.tree == (st.tree + steps[0].line) + Lines(steps[..n][1..]);
    }
  }

  // ------------------------------------------------------- what is offered

  /** The files offered to the budget, in walk order. */
  function Offers(steps: seq<Step>): seq<Candidate>
  {
    if steps == [] then []
    else (if steps[0].action.Offer? then [steps[0].action.candidate] else []) + Offers(steps[1..])
  }

  function Docs(cands: seq<Candidate>): seq<Document>
  {
    if cands == [] then [] else [cands[0].doc] + Docs(cands[1..])
  }

  function Tokens(cands: seq<Candidate>): nat
  {
    if cands == [] then 0 else cands[0].tokens + Tokens(cands[1..])
  }

  lemma {:induction false} TokensAppend(a: seq<Candidate>, b: seq<Candidate>)
    ensures Tokens(a + b) == Tokens(a) + Tokens(b)
  {
    if a == [] {
      assert a + b == b;
    } else {
      assert (a + b)[0] == a[0] && (a + b)[1..] == a[1..] + b;
      TokensAppend(a[1..], b);
    }
  }

  /** The candidates' own token counts, summed from the front, agree with the
      running total `TokenSum` keeps over their documents, summed from the
      back, whenever each count is the tokenizer's count of its content. */
  lemma {:induction false} TokensAreTokenSum(tokens: string -> nat, cands: seq<Candidate>)
    requires forall c :: c in cands ==> c.tokens == tokens(c.doc.pageContent)
    ensures Tokens(cands) == TokenSum(tokens, Docs(cands))
    decreases |cands|
  {
    if cands != [] {
      var init := cands[..|cands| - 1];
      var last := cands[|cands| - 1];
      assert cands == init + [last];
      TokensAreTokenSum(tokens, init);
      TokensAppend(init, [last]);
      assert Tokens([last]) == last.tokens + Tokens([]);
      DocsAppend(init, [last]);
      assert Docs([last]) == [last.doc] + Docs([]);
      var docs := Docs(cands);
      assert docs[..|docs| - 1] == Docs(init) && docs[|docs| - 1] == last.doc;
    }
  }

  predicate NoFailures(steps: seq<Step>)
  {
    forall k :: 0 <= k < |steps| ==> !steps[k].action.Fail?
  }

  /** Takes candidates in order while their running sum stays within
      `budget`; the first one that would exceed it ends the selection. */
  function TakeWithin(cands: seq<Candidate>, budget: int): seq<Candidate>
  {
    if cands == [] || cands[0].tokens > budget then []
    else [cands[0]] + TakeWithin(cands[1..], budget - cands[0].tokens)
  }

  /** `TakeWithin` is the longest prefix whose token sum fits the budget:
      it is a prefix, it fits (unless empty), the next candidate would not
      fit, and no longer prefix fits. */
  lemma {:induction false} TakeWithinIsLongestFittingPrefix(cands: seq<Candidate>, budget: int)
    ensures TakeWithin(cands, budget) <= cands
    ensures TakeWithin(cands, budget) != [] ==> Tokens(TakeWithin(cands, budget)) <= budget
    ensures |TakeWithin(cands, budget)| < |cands| ==>
              Tokens(TakeWithin(cands, budget)) + cands[|TakeWithin(cands, budget)|].tokens > budget
    ensures forall n :: 0 <= n <= |cands| && Tokens(cands[..n]) <= budget ==> n <= |TakeWithin(cands, budget)|
  {
    if cands != [] && cands[0].tokens <= budget {
      var rest := cands[1..];
      var b := budget - cands[0].tokens;
      TakeWithinIsLongestFittingPrefix(rest, b);
      forall n | 0 <= n <= |cands| && Tokens(cands[..n]) <= budget
        ensures n <= |TakeWithin(cands, budget)|
      {
        if n > 0 {
          assert cands[..n][1..] == rest[..n - 1];
          assert Tokens(rest[..n - 1]) <= b;
        }
      }
    } else if cands != [] {
      forall n | 0 <= n <= |cands| && Tokens(cands[..n]) <= budget
        ensures n <= |TakeWithin(cands, budget)|
      {
        if n > 0 {
          assert cands[..n][0] == cands[0];
        }
      }
    }
  }

  /** With no unreadable entry on the way, a run accepts exactly the longest
      fitting prefix of the offered files, and stops early exactly when some
      offered file was left out. */
  lemma {:induction false} RunAccepts(limit: int, steps: seq<Step>, st: ScanState)
    requires NoFailures(steps)
    ensures Run(limit, steps, st).Walked?
    ensures Run(limit, steps, st).state.documents == st.documents + Docs(TakeWithin(Offers(steps), limit - st.totalTokens))
    ensures Run(limit, steps, st).state.totalTokens == st.totalTokens + Tokens(TakeWithin(Offers(steps), limit - st.totalTokens))
    ensures Run(limit, steps, st).reachedLimit <==> |TakeWithin(Offers(steps), limit - st.totalTokens)| < |Offers(steps)|
    decreases |steps|, 1
  {
    if steps != [] {
      var listed := st.(tree := st.tree + steps[0].line);
      assert NoFailures(steps[1..]) by {
        forall k | 0 <= k < |steps[1..]| ensures !steps[1..][k].action.Fail? {
          assert steps[1..][k] == steps[k + 1];
        }
      }
      assert !steps[0].action.Fail?;
      if steps[0].action.Listed? {
        assert Offers(steps) == [] + Offers(steps[1..]) == Offers(steps[1..]);
        assert Run(limit, steps, st) == Run(limit, steps[1..], listed);
        RunAccepts(limit, steps[1..], listed);
      } else {
        RunAcceptsOffer(limit, steps, st);
      }
    }
  }

  lemma {:induction false} RunAcceptsOffer(limit: int, steps: seq<Step>, st: ScanState)
    requires NoFailures(steps) && steps != [] && steps[0].action.Offer?
    ensures Run(limit, steps, st).Walked?
    ensures Run(limit, steps, st).state.documents == st.documents + Docs(TakeWithin(Offers(steps), limit - st.totalTokens))
    ensures Run(limit, steps, st).state.totalTokens == st.totalTokens + Tokens(TakeWithin(Offers(steps), limit - st.totalTokens))
    ensures Run(limit, steps, st).reachedLimit <==> |TakeWithin(Offers(steps), limit - st.totalTokens)| < |Offers(steps)|
    decreases |steps|, 0
  {
    var c := steps[0].action.candidate;
    var listed := st.(tree := st.tree + steps[0].line);
    var rest := Offers(steps[1..]);
    var budget := limit - st.totalTokens;
    assert Offers(steps) == [c] + rest;
    assert ([c] + rest)[0] == c && ([c] + rest)[1..] == rest;
    if c.tokens <= budget {
      var next := listed.(documents := listed.documents + [c.doc], totalTokens := listed.totalTokens + c.tokens);
      assert Run(limit, steps, st) == Run(limit, steps[1..], next);
      assert NoFailures(steps[1..]) by {
        forall k | 0 <= k < |steps[1..]| ensures !steps[1..][k].action.Fail? {
          assert steps[1..][k] == steps[k + 1];
        }
      }
      RunAccepts(limit, steps[1..], next);
      var taken := TakeWithin(rest, budget - c.tokens);
      assert TakeWithin(Offers(steps), budget) == [c] + taken;
      assert ([c] + taken)[0] == c && ([c] + taken)[1..] == taken;
      assert Docs([c] + taken) == [c.doc] + Docs(taken);
      assert st.documents + Docs([c] + taken) == next.documents + Docs(taken);
    } else {
      assert TakeWithin(Offers(steps), budget) == [];
    }
  }

  /** Every document a run accepts was offered by one of its steps. */
  lemma {:induction false} RunDocsOffered(limit: int, steps: seq<Step>, st: ScanState)
    ensures Run(limit, steps, st).Walked? ==>
              forall d :: d in Run(limit, steps, st).state.documents ==> d in st.documents || d in Docs(Offers(steps))
  {
    if steps != [] {
      var listed := st.(tree := st.tree + steps[0].line);
      match steps[0].action
      case Listed =>
        assert Offers(steps) == [] + Offers(steps[1..]) == Offers(steps[1..]);
        RunDocsOffered(limit, steps[1..], listed);
      case Offer(c) =>
        assert Offers(steps) == [c] + Offers(steps[1..]);
        DocsAppend([c], Offers(steps[1..]));
        if listed.totalTokens + c.tokens <= limit {
          var next := listed.(documents := listed.documents + [c.doc], totalTokens := listed.totalTokens + c.tokens);
          RunDocsOffered(limit, steps[1..], next);
        }
      case Fail(_) =>
    }
  }

  lemma {:induction false} DocsAppend(a: seq<Candidate>, b: seq<Candidate>)
    ensures Docs(a + b) == Docs(a) + Docs(b)
  {
    if a == [] {
      assert a + b == b;
    } else {
      assert (a + b)[1..] == a[1..] + b;
      DocsAppend(a[1..], b);
    }
  }

  /** Step `k` is an unreadable entry that a run with `budget` tokens left
      reaches: no unreadable entry comes before it, and every file offered
      before it fits the budget, so the run neither fails nor stops early on
      the way. */
  predicate Reaches(steps: seq<Step>, k: int, budget: int)
  {
    && 0 <= k < |steps|
    && steps[k].action.Fail?
    && NoFailures(steps[..k])
    && |TakeWithin(Offers(steps[..k]), budget)| == |Offers(steps[..k])|
  }

  /** A run ends in failure only at an unreadable entry of its steps that it
      reaches. */
  lemma {:induction false} RunFailsAtFailStep(limit: int, steps: seq<Step>, st: ScanState)
    ensures Run(limit, steps, st).ReadFailed? ==>
              exists k :: Reaches(steps, k, limit - st.totalTokens) && steps[k].action == Fail(Run(limit, steps, st).error)
  {
    var budget := limit - st.totalTokens;
    if steps != [] && steps[0].action.Fail? {
      assert steps[..0] == [];
      assert Reaches(steps, 0, budget);
    } else if steps != [] {
      var listed := st.(tree := st.tree + steps[0].line);
      var fits := steps[0].action.Listed? || listed.totalTokens + steps[0].action.candidate.tokens <= limit;
      var next := if steps[0].action.Listed? then listed
        else listed.(documents := listed.documents + [steps[0].action.candidate.doc],
                     totalTokens := listed.totalTokens + steps[0].action.candidate.tokens);
      if fits {
        assert Run(limit, steps, st) == Run(limit, steps[1..], next);
        RunFailsAtFailStep(limit, steps[1..], next);
        if Run(limit, steps, st).ReadFailed? {
          var k :| Reaches(steps[1..], k, limit - next.totalTokens) && steps[1..][k].action == Fail(Run(limit, steps, st).error);
          ReachesCons(steps, k, budget);
        }
      }
    }
  }

  /** Reaching an entry of the rest of the steps, after a first step that
      is listed or whose file fits, reaches it from the start. */
  lemma ReachesCons(steps: seq<Step>, k: int, budget: int)
    requires steps != [] && !steps[0].action.Fail?
    requires steps[0].action.Offer? ==> steps[0].action.candidate.tokens <= budget
    requires Reaches(steps[1..], k, budget - (if steps[0].action.Offer? then steps[0].action.candidate.tokens else 0))
    ensures Reaches(steps, k + 1, budget)
    ensures steps[k + 1] == steps[1..][k]
  {
    var pre := steps[..k + 1];
    assert pre[0] == steps[0] && pre[1..] == steps[1..][..k];
    assert NoFailures(pre) by {
      forall j | 0 <= j < |pre| ensures !pre[j].action.Fail? {
        if j > 0 {
          assert pre[j] == steps[1..][..k][j - 1];
        }
      }
    }
    if steps[0].action.Offer? {
      var c := steps[0].action.candidate;
      var rest := Offers(steps[1..][..k]);
      assert Offers(pre) == [c] + rest;
      assert ([c] + rest)[0] == c && ([c] + rest)[1..] == rest;
      assert TakeWithin(Offers(pre), budget) == [c] + TakeWithin(rest, budget - c.tokens);
    } else {
      assert Offers(pre) == [] + Offers(steps[1..][..k]) == Offers(steps[1..][..k]);
    }
  }

  /** Conversely, a run that reaches an unreadable entry fails with its
      error. */
  lemma RunFailsAtReachedFail(limit: int, steps: seq<Step>, k: int, st: ScanState)
    requires Reaches(steps, k, limit - st.totalTokens)
    ensures Run(limit, steps, st) == ReadFailed(steps[k].action.error)
  {
    assert steps[..k] + steps[k..] == steps;
    RunAppend(limit, steps[..k], steps[k..], st);
    RunAccepts(limit, steps[..k], st);
    assert steps[k..][0] == steps[k];
  }

  // -------------------------------------------------------------- listing

  function Lines(steps: seq<Step>): string
  {
    if steps == [] then "" else steps[0].line + Lines(steps[1..])
  }

  /** The listing a run produces is the lines of a prefix of its steps: all
      of them when the budget was not reached, and otherwise up to and
      including the offered file that tripped it, which is the first offered
      file after the accepted ones. */
  lemma RunListing(limit: int, steps: seq<Step>, st: ScanState)
    ensures Run(limit, steps, st).Walked? ==>
              exists n :: 0 <= n <= |steps|
                && Run(limit, steps, st).state.tree == st.tree + Lines(steps[..n])
                && (Run(limit, steps, st).reachedLimit ==> Trips(limit - st.totalTokens, steps, n))
                && (!Run(limit, steps, st).reachedLimit ==> n == |steps|)
  {
    RunListingLines(limit, steps, st);
    RunListingTrips(limit, steps, st);
    var n := ListedCount(limit, steps, st);
    assert Run(limit, steps, st).Walked? ==> Run(limit, steps, st).state.tree == st.tree + Lines(steps[..n]);
  }

  /** How many steps a run lists: up to the first unreadable one, or up to
      and including the offered file that trips the budget, or all. */
  function ListedCount(limit: int, steps: seq<Step>, st: ScanState): (n: nat)
    ensures n <= |steps|
  {
    if steps == [] then 0
    else
      var listed := st.(tree := st.tree + steps[0].line);
      match steps[0].action
      case Listed => 1 + ListedCount(limit, steps[1..], listed)
      case Fail(_) => 1
      case Offer(c) =>
        if listed.totalTokens + c.tokens > limit then 1
        else 1 + ListedCount(limit, steps[1..], listed.(documents := listed.documents + [c.doc],
                                                         totalTokens := listed.totalTokens + c.tokens))
  }

  lemma {:induction false} RunListingLines(limit: int, steps: seq<Step>, st: ScanState)
    ensures Run(limit, steps, st).Walked? ==>
              Run(limit, steps, st).state.tree == st.tree + Lines(steps[..ListedCount(limit, steps, st)])
    ensures Run(limit, steps, st).Walked? && !Run(limit, steps, st).reachedLimit ==> ListedCount(limit, steps, st) == |steps|
  {
    var r := Run(limit, steps, st);
    if steps == [] {
      assert r.state.tree == st.tree + Lines(steps[..0]);
    } else if r.Walked? {
      var listed := st.(tree := st.tree + steps[0].line);
      assert Lines(steps[..1]) == steps[0].line + Lines([]) by {
        assert steps[..1][1..] == [];
      }
      if !(steps[0].action.Offer? && listed.totalTokens + steps[0].action.candidate.tokens > limit) {
        var next := if steps[0].action.Listed? then listed
          else listed.(documents := listed.documents + [steps[0].action.candidate.doc],
                       totalTokens := listed.totalTokens + steps[0].action.candidate.tokens);
        assert r == Run(limit, steps[1..], next);
        RunListingLines(limit, steps[1..], next);
        var m := ListedCount(limit, steps[1..], next);
        assert ListedCount(limit, steps, st) == m + 1;
        assert steps[..m + 1][1..] == steps[1..][..m];
        assert Lines(steps[..m + 1]) == steps[0].line + Lines(steps[1..][..m]);
        assert !r.reachedLimit ==> m + 1 == |steps|;
      }
    }
  }

  lemma {:induction false} RunListingTrips(limit: int, steps: seq<Step>, st: ScanState)
    ensures Run(limit, steps, st).Walked? && Run(limit, steps, st).reachedLimit ==>
              Trips(limit - st.totalTokens, steps, ListedCount(limit, steps, st))
  {
    var r := Run(limit, steps, st);
    if steps != [] && r.Walked? && r.reachedLimit {
      var listed := st.(tree := st.tree + steps[0].line);
      if steps[0].action.Offer? && listed.totalTokens + steps[0].action.candidate.tokens > limit {
        TripsFirst(limit - st.totalTokens, steps);
      } else {
        var next := if steps[0].action.Listed? then listed
          else listed.(documents := listed.documents + [steps[0].action.candidate.doc],
                       totalTokens := listed.totalTokens + steps[0].action.candidate.tokens);
        assert r == Run(limit, steps[1..], next);
        RunListingTrips(limit, steps[1..], next);
        assert ListedCount(limit, steps, st) == ListedCount(limit, steps[1..], next) + 1;
        TripsCons(limit - st.totalTokens, steps, ListedCount(limit, steps[1..], next));
      }
    }
  }

  /** Step `n - 1` is the offered file that trips a budget of `budget`: the
      files offered up to it are the accepted ones followed by it. */
  predicate Trips(budget: int, steps: seq<Step>, n: int)
  {
    && 0 < n <= |steps|
    && steps[n - 1].action.Offer?
    && Offers(steps[..n]) == TakeWithin(Offers(steps), budget) + [steps[n - 1].action.candidate]
  }

  lemma TripsFirst(budget: int, steps: seq<Step>)
    requires steps != [] && steps[0].action.Offer? && steps[0].action.candidate.tokens > budget
    ensures Trips(budget, steps, 1)
  {
    var c := steps[0].action.candidate;
    assert Offers(steps) == [c] + Offers(steps[1..]);
    assert steps[..1][1..] == [];
    assert Offers(steps[..1]) == [c] + Offers([]);
  }

  lemma TripsCons(budget: int, steps: seq<Step>, m: int)
    requires steps != [] && !steps[0].action.Fail?
    requires steps[0].action.Offer? ==> steps[0].action.candidate.tokens <= budget
    requires Trips(budget - (if steps[0].action.Offer? then steps[0].action.candidate.tokens else 0), steps[1..], m)
    ensures Trips(budget, steps, m + 1)
  {
    var pre := steps[..m + 1];
    assert pre[0] == steps[0] && pre[1..] == steps[1..][..m];
    assert steps[m] == steps[1..][m - 1];
    if steps[0].action.Offer? {
      var c := steps[0].action.candidate;
      assert Offers(pre) == [c] + Offers(steps[1..][..m]);
      assert Offers(steps) == [c] + Offers(steps[1..]);
      assert ([c] + Offers(steps[1..]))[0] == c && ([c] + Offers(steps[1..]))[1..] == Offers(steps[1..]);
      assert TakeWithin(Offers(steps), budget) == [c] + TakeWithin(Offers(steps[1..]), budget - c.tokens);
    } else {
      assert Offers(pre) == [] + Offers(steps[1..][..m]) == Offers(steps[1..][..m]);
      assert Offers(steps) == [] + Offers(steps[1..]) == Offers(steps[1..]);
    }
  }

  // ------------------------------------------------------ what is eligible

  /** An offered file: its extension is allowed, its path is not ignored and
      ends with its name, its file type is its extension without the dot, and
      its token count is the tokenizer's count of its content. */
  predicate WellFormed(cfg: ScanConfig, c: Candidate)
  {
    && Allowed(cfg.extensions, c.name)
    && !cfg.ignores(c.doc.source)
    && |c.name| <= |c.doc.source| && c.doc.source[|c.doc.source| - |c.name|..] == c.name
    && c.doc.fileType == FileType(c.name)
    && c.tokens == cfg.tokens(c.doc.pageContent)
  }

  lemma {:induction false} OffersAppend(a: seq<Step>, b: seq<Step>)
    ensures Offers(a + b) == Offers(a) + Offers(b)
  {
    if a == [] {
      assert a + b == b;
    } else {
      assert (a + b)[0] == a[0];
      assert (a + b)[1..] == a[1..] + b;
      OffersAppend(a[1..], b);
    }
  }

  lemma RelPathEndsWithName(dirPath: string, name: string)
    ensures |name| <= |RelPath(dirPath, name)|
    ensures RelPath(dirPath, name)[|RelPath(dirPath, name)| - |name|..] == name
  {
  }

  /** Only allowed, non-ignored files are ever offered. */
  lemma {:induction false} FlattenOffersWellFormed(cfg: ScanConfig, dirPath: string, prefix: string, entries: seq<Node>, i: nat)
    requires i <= |entries|
    ensures forall c :: c in Offers(Flatten(cfg, dirPath, prefix, entries, i)) ==> WellFormed(cfg, c)
    decreases entries, |entries| - i
  {
    if i < |entries| {
      var relativePath := RelPath(dirPath, entries[i].name);
      var rest := Flatten(cfg, dirPath, prefix, entries, i + 1);
      FlattenOffersWellFormed(cfg, dirPath, prefix, entries, i + 1);
      var own := if cfg.ignores(relativePath) then []
        else EntrySteps(cfg, relativePath, prefix, i == |entries| - 1, entries[i]);
      OffersAppend(own, rest);
      if !cfg.ignores(relativePath) {
        EntryOffersWellFormed(cfg, dirPath, prefix, i == |entries| - 1, entries[i]);
      }
    }
  }

  lemma {:induction false} EntryOffersWellFormed(cfg: ScanConfig, dirPath: string, prefix: string, isLast: bool, entry: Node)
    requires !cfg.ignores(RelPath(dirPath, entry.name))
    ensures forall c :: c in Offers(EntrySteps(cfg, RelPath(dirPath, entry.name), prefix, isLast, entry)) ==> WellFormed(cfg, c)
    decreases entry
  {
    var relativePath := RelPath(dirPath, entry.name);
    var own := EntrySteps(cfg, relativePath, prefix, isLast, entry);
    RelPathEndsWithName(dirPath, entry.name);
    if entry.Dir? {
      var inner := Flatten(cfg, relativePath, prefix + ChildIndent(isLast), entry.children, 0);
      FlattenOffersWellFormed(cfg, relativePath, prefix + ChildIndent(isLast), entry.children, 0);
      OffersAppend([own[0]], inner);
      assert own == [own[0]] + inner;
      assert Offers([own[0]]) == [] + Offers([]);
    } else {
      assert own == [own[0]];
      assert Offers(own) == (if own[0].action.Offer? then [own[0].action.candidate] else []) + Offers([]);
    }
  }

  /** An ignored entry is never examined: whatever it is (a file, an
      unreadable file, a directory with any contents), replacing it by any
      other entry of the same name changes neither the steps nor the walk.
      In particular an ignored directory's descendants are never visited. */
  lemma IgnoredEntryNeverExamined(cfg: ScanConfig, dirPath: string, prefix: string, entries: seq<Node>, i: nat, j: nat, other: Node, st: ScanState)
    requires i <= |entries| && j < |entries|
    requires other.name == entries[j].name && cfg.ignores(RelPath(dirPath, entries[j].name))
    ensures Flatten(cfg, dirPath, prefix, entries[j := other], i) == Flatten(cfg, dirPath, prefix, entries, i)
    ensures Walk(cfg, dirPath, prefix, entries[j := other], i, st) == Walk(cfg, dirPath, prefix, entries, i, st)
  {
    IgnoredEntryFlatten(cfg, dirPath, prefix, entries, i, j, other);
    WalkIsRun(cfg, dirPath, prefix, entries[j := other], i, st);
    WalkIsRun(cfg, dirPath, prefix, entries, i, st);
  }

  lemma {:induction false} IgnoredEntryFlatten(cfg: ScanConfig, dirPath: string, prefix: string, entries: seq<Node>, i: nat, j: nat, other: Node)
    requires i <= |entries| && j < |entries|
    requires other.name == entries[j].name && cfg.ignores(RelPath(dirPath, entries[j].name))
    ensures Flatten(cfg, dirPath, prefix, entries[j := other], i) == Flatten(cfg, dirPath, prefix, entries, i)
    decreases |entries| - i
  {
    if i < |entries| {
      IgnoredEntryFlatten(cfg, dirPath, prefix, entries, i + 1, j, other);
      var replaced := entries[j := other];
      assert |replaced| == |entries|;
      assert replaced[i].name == entries[i].name;
      assert i != j ==> replaced[i] == entries[i];
    }
  }

  lemma {:induction false} DocsMember(cands: seq<Candidate>, d: Document)
    requires d in Docs(cands)
    ensures exists c :: c in cands && c.doc == d
  {
    if cands[0].doc != d {
      DocsMember(cands[1..], d);
      var c :| c in cands[1..] && c.doc == d;
      assert c in cands;
    }
  }

  /** Safety of the scan, whatever the tree holds: every accepted document is
      an allowed, non-ignored file of the tree, and the budget invariant
      holds. */
  lemma ScanDocumentsEligible(cfg: ScanConfig, name: string, children: seq<Node>)
    ensures ScanCodebase(cfg, Dir(name, children)).Ok? ==>
              forall d :: d in ScanCodebase(cfg, Dir(name, children)).value.documents ==>
                && !cfg.ignores(d.source)
                && exists c :: c in Offers(Flatten(cfg, "", "", children, 0)) && c.doc == d && WellFormed(cfg, c)
  {
    var steps := Flatten(cfg, "", "", children, 0);
    WalkIsRun(cfg, "", "", children, 0, InitialState());
    RunDocsOffered(cfg.limit, steps, InitialState());
    FlattenOffersWellFormed(cfg, "", "", children, 0);
    var r := ScanCodebase(cfg, Dir(name, children));
    if r.Ok? {
      forall d | d in r.value.documents
        ensures !cfg.ignores(d.source)
        ensures exists c :: c in Offers(steps) && c.doc == d && WellFormed(cfg, c)
      {
        DocsMember(Offers(steps), d);
      }
    }
  }

  /** The documents of a scan with no unreadable entry on its way are the
      longest prefix, in depth-first listing order, of the eligible files
      whose token sum is within the limit; the scan reports reaching the
      limit exactly when an eligible file was left out, and otherwise lists
      every non-ignored entry. The steps are split as `pre + post`, where
      `pre` holds no unreadable entry and `post` is either empty or comes
      after the file that tripped the budget, so it may hold anything,
      unreadable entries included: the walk never gets there. */
  lemma ScanSelectsFittingPrefix(cfg: ScanConfig, name: string, children: seq<Node>, pre: seq<Step>, post: seq<Step>)
    requires Flatten(cfg, "", "", children, 0) == pre + post
    requires NoFailures(pre)
    requires post == [] || |TakeWithin(Offers(pre), cfg.limit)| < |Offers(pre)|
    ensures ScanCodebase(cfg, Dir(name, children)).Ok?
    ensures ScanCodebase(cfg, Dir(name, children)).value.documents == Docs(TakeWithin(Offers(pre), cfg.limit))
    ensures ScanCodebase(cfg, Dir(name, children)).value.totalTokens == Tokens(TakeWithin(Offers(pre), cfg.limit))
    ensures ScanCodebase(cfg, Dir(name, children)).value.reachedLimit <==> |TakeWithin(Offers(pre), cfg.limit)| < |Offers(pre)|
    ensures !ScanCodebase(cfg, Dir(name, children)).value.reachedLimit ==>
              ScanCodebase(cfg, Dir(name, children)).value.tree == Lines(Flatten(cfg, "", "", children, 0))
  {
    WalkIsRun(cfg, "", "", children, 0, InitialState());
    RunAppend(cfg.limit, pre, post, InitialState());
    RunAccepts(cfg.limit, pre, InitialState());
    RunListing(cfg.limit, pre, InitialState());
    assert pre[..|pre|] == pre;
    assert post == [] ==> pre + post == pre;
  }

  /** A scan fails only at an unreadable entry that the walk reaches. */
  lemma ScanFailsOnlyAtUnreadable(cfg: ScanConfig, name: string, children: seq<Node>)
    ensures ScanCodebase(cfg, Dir(name, children)).Err? ==>
              exists k :: Reaches(Flatten(cfg, "", "", children, 0), k, cfg.limit)
                && Flatten(cfg, "", "", children, 0)[k].action == Fail(ScanCodebase(cfg, Dir(name, children)).error)
  {
    WalkIsRun(cfg, "", "", children, 0, InitialState());
    RunFailsAtFailStep(cfg.limit, Flatten(cfg, "", "", children, 0), InitialState());
  }

  /** Conversely, a scan whose walk reaches an unreadable entry fails with
      that entry's error. */
  lemma ScanFailsAtReachedUnreadable(cfg: ScanConfig, name: string, children: seq<Node>, k: int)
    requires Reaches(Flatten(cfg, "", "", children, 0), k, cfg.limit)
    ensures ScanCodebase(cfg, Dir(name, children)) == Err(Flatten(cfg, "", "", children, 0)[k].action.error)
  {
    WalkIsRun(cfg, "", "", children, 0, InitialState());
    RunFailsAtReachedFail(cfg.limit, Flatten(cfg, "", "", children, 0), k, InitialState());
  }
}

=== FILE: streaming.dfy ===
/** The generation side of langchain.js: the Gemini retry loop of
    `queryGemini`, the token buffering of `queryOpenAI`, and the provider
    dispatch of `queryLLM`.

    The backends are scripted: a Gemini attempt is the list of chunk texts
    its stream yields, optionally followed by the error it rejects with; an
    OpenAI invocation is the list of tokens its callback receives, optionally
    followed by a rejection. Standard output is the list of strings written
    to it; the waits between retries are recorded as the list of requested
    delays in milliseconds. */
module Streaming {
  import opened Outcomes
  import opened Text
  import opened ConversationHistory
  import Providers
  import Prompts
  import VectorStore

  // --------------------------------------------------------------- Gemini

  /** What one `generateContentStream` call does: a stream whose chunks are
      `chunks`, ending normally or with a rejection carrying `failure` (a
      rejection before the first chunk has no chunks), or a result without a
      stream whose whole text is `text`. */
  datatype GeminiAttempt =
    | Streamed(chunks: seq<string>, failure: Option<string>)
    | Whole(text: string)

  const GeminiRetries: int := 3
  const ParseFailure: string := "Failed to parse stream"
  const MaxRetriesMessage: string := "Max retries reached. Unable to get a response from the API."

  /** The wait before retrying after failed attempt `attempt` (counted from 0). */
  function RetryDelay(attempt: nat): nat
  {
    1000 * (attempt + 1)
  }

  /** An attempt whose error the loop retries when attempts remain. */
  predicate Retryable(a: GeminiAttempt)
  {
    a.Streamed? && a.failure.Some? && Contains(a.failure.value, ParseFailure)
  }

  /** What an attempt writes to standard output, in order. */
  function AttemptWrites(a: GeminiAttempt): seq<string>
  {
    match a
    case Streamed(chunks, _) => chunks
    case Whole(text) => [text]
  }

  /** Everything the first `n` attempts write. */
  function Emitted(backend: nat -> GeminiAttempt, n: nat): seq<string>
  {
    if n == 0 then [] else Emitted(backend, n - 1) + AttemptWrites(backend(n - 1))
  }

  /** The `for await` loop: each chunk is appended to the response and
      written once, in order. */
  method StreamChunks(chunks: seq<string>, response: string, writes: seq<string>)
    returns (response': string, writes': seq<string>)
    ensures writes' == writes + chunks
    ensures response' == response + Concat(chunks)
  {
    response', writes' := response, writes;
    var k := 0;
    while k < |chunks|
      invariant 0 <= k <= |chunks|
      invariant writes' == writes + chunks[..k]
      invariant response' == response + Concat(chunks[..k])
    {
      ConcatSnoc(chunks[..k], chunks[k]);
      assert chunks[..k + 1] == chunks[..k] + [chunks[k]];
      response' := response' + chunks[k];
      writes' := writes' + [chunks[k]];
      k := k + 1;
    }
    assert chunks[..k] == chunks;
  }

  /** How the call ends when attempt `a` is the last one made, `response`
      being the accumulated text: a whole result returns its own text, a
      stream that ends normally returns the accumulated text, and a rejection
      is rethrown, which happens only on the final permitted attempt or when
      the error is not a stream-parse failure. */
  predicate Settles(a: GeminiAttempt, r: Result<string>, response: string, finalAttempt: bool)
  {
    match a
    case Whole(text) => r == Ok(text)
    case Streamed(_, None) => r == Ok(response)
    case Streamed(_, Some(m)) => r == Err(Message(m)) && (finalAttempt || !Retryable(a))
  }

  /** The body of one pass of the retry loop: run attempt `attempt` and
      either settle the call (`Some`: return or rethrow) or ask for a retry
      (`None`). */
  method TryAttempt(a: GeminiAttempt, attempt: nat, retries: int, response: string, writes: seq<string>)
    returns (settled: Option<Result<string>>, response': string, writes': seq<string>)
    requires attempt < retries
    ensures writes' == writes + AttemptWrites(a)
    ensures settled.None? <==> Retryable(a) && attempt < retries - 1
    ensures response' == if a.Whole? then a.text else response + Concat(a.chunks)
    ensures settled.Some? ==> Settles(a, settled.value, response', attempt == retries - 1)
  {
    match a {
      case Whole(text) =>
        response' := text;
        writes' := writes + [text];
        settled := Some(Ok(response'));
      case Streamed(chunks, failure) =>
        response', writes' := StreamChunks(chunks, response, writes);
        if failure.None? {
          settled := Some(Ok(response'));
        } else if Contains(failure.value, ParseFailure) && attempt < retries - 1 {
          settled := None;
        } else {
          settled := Some(Err(Message(failure.value)));
        }
    }
  }

  /** Attempt `attempt` of the loop, given what the earlier attempts wrote;
      the response text at that point is everything written so far. */
  method GeminiStep(backend: nat -> GeminiAttempt, retries: int, attempt: nat, writes: seq<string>)
    returns (settled: Option<Result<string>>, writes': seq<string>)
    requires attempt < retries
    requires writes == Emitted(backend, attempt)
    ensures writes' == Emitted(backend, attempt + 1)
    ensures settled.None? <==> Retryable(backend(attempt)) && attempt < retries - 1
    ensures settled.Some? ==> Settles(backend(attempt), settled.value, Concat(writes'), attempt + 1 == retries)
  {
    var a := backend(attempt);
    var response;
    ConcatAppend(writes, AttemptWrites(a));
    settled, response, writes' := TryAttempt(a, attempt, retries, Concat(writes), writes);
  }

  /** `queryGemini(..., retries)` from the prompt on: `backend(k)` is what
      attempt `k` does. `calls` counts the `generateContentStream` calls.

      An attempt that rejects with "Failed to parse stream" is retried after
      a wait of 1000 * (k + 1) ms while attempts remain; any other rejection,
      and a parse failure on the last attempt, is rethrown as it is. The
      response is not reset between attempts, so a successful stream returns
      the chunks of the failed attempts before it as well; a result without a
      stream replaces it. "Max retries reached" is thrown only when no
      attempt is allowed at all. */
  method QueryGemini(backend: nat -> GeminiAttempt, retries: int)
    returns (r: Result<string>, writes: seq<string>, delays: seq<nat>, calls: nat)
    ensures calls == 0 <==> retries <= 0
    ensures calls <= retries || calls == 0
    ensures retries <= 0 ==> r == Err(Message(MaxRetriesMessage)) && writes == [] && delays == []
    ensures calls > 0 ==> |delays| == calls - 1
    ensures forall k :: 0 <= k < |delays| ==> delays[k] == RetryDelay(k)
    ensures forall k :: 0 <= k < calls - 1 ==> Retryable(backend(k))
    ensures writes == Emitted(backend, calls)
    ensures calls > 0 ==> Settles(backend(calls - 1), r, Concat(writes), calls == retries)
  {
    writes, delays, calls := [], [], 0;
    while calls < retries
      invariant calls == 0 || calls < retries
      invariant writes == Emitted(backend, calls)
      invariant |delays| == calls
      invariant forall k :: 0 <= k < calls ==> delays[k] == RetryDelay(k)
      invariant forall k :: 0 <= k < calls ==> Retryable(backend(k))
      decreases retries - calls
    {
      var settled;
      settled, writes := GeminiStep(backend, retries, calls, writes);
      calls := calls + 1;
      if settled.Some? {
        r := settled.value;
        return;
      }
      delays := delays + [RetryDelay(calls - 1)];
    }
    r := Err(Message(MaxRetriesMessage));
  }

  // --------------------------------------------------------------- OpenAI

  /** What one streaming `invoke` does: the tokens its callback receives,
      then a normal end or a rejection carrying `failure`. */
  datatype TokenStream = TokenStream(tokens: seq<string>, failure: Option<string>)

  /** A buffer longer than this is flushed. */
  const FlushThreshold: nat := 20

  /** The callback must write: more than 20 characters are unwritten, or the
      token that just arrived holds a newline. */
  predicate Due(unwritten: int, token: string)
  {
    unwritten > FlushThreshold || '\n' in token
  }

  /** `handleLLMNewToken`: the token joins the buffer, which is written out
      whole, and emptied, exactly when it has grown past 20 characters or the
      token holds a newline. */
  method HandleToken(buffer: string, token: string) returns (write: Option<string>, rest: string)
    ensures write.None? ==> rest == buffer + token
    ensures write.Some? ==> write.value == buffer + token
    ensures write.Some? <==> Due(|buffer + token|, token)
    ensures write.Some? ==> rest == "" && write.value != "" && (|write.value| > FlushThreshold || '\n' in write.value)
    ensures |rest| <= FlushThreshold
    ensures '\n' !in buffer ==> '\n' !in rest
  {
    rest := buffer + token;
    if |rest| > FlushThreshold || '\n' in token {
      assert '\n' in token ==> '\n' in rest by {
        if '\n' in token {
          var j :| 0 <= j < |token| && token[j] == '\n';
          assert rest[|buffer| + j] == '\n';
        }
      }
      write := Some(rest);
      rest := "";
    } else {
      write := None;
      assert '\n' !in buffer ==> '\n' !in rest by {
        if '\n' !in buffer {
          forall j | 0 <= j < |rest| ensures rest[j] != '\n' {
            if j >= |buffer| {
              assert rest[j] == token[j - |buffer|];
            } else {
              assert rest[j] == buffer[j];
            }
          }
        }
      }
    }
  }

  /** Once the tokens `received` have arrived and the writes `written` have
      been made, what is still held back is a tail of the response of at most
      20 characters, with no newline. */
  predicate Pending(written: seq<string>, received: seq<string>)
  {
    && |Concat(written)| <= |Concat(received)|
    && Concat(received)[..|Concat(written)|] == Concat(written)
    && |Concat(received)| - |Concat(written)| <= FlushThreshold
    && '\n' !in Concat(received)[|Concat(written)|..]
  }

  lemma PendingOf(written: seq<string>, buffer: string, received: seq<string>)
    requires Concat(written) + buffer == Concat(received)
    requires |buffer| <= FlushThreshold && '\n' !in buffer
    ensures Pending(written, received)
  {
    assert Concat(received)[..|Concat(written)|] == Concat(written);
    assert Concat(received)[|Concat(written)|..] == buffer;
  }

  /** `flushedBy[i]` writes of `writes` had been made by the end of the
      callback for token `i`, and by then what had arrived was written out
      but for a pending tail. */
  predicate FlushedInTime(writes: seq<string>, flushedBy: seq<nat>, tokens: seq<string>)
    requires |flushedBy| <= |tokens|
  {
    forall i :: 0 <= i < |flushedBy| ==> flushedBy[i] <= |writes| && Pending(writes[..flushedBy[i]], tokens[..i + 1])
  }

  /** Each callback makes at most one write. */
  predicate OneWriteEach(flushedBy: seq<nat>)
  {
    forall i :: 0 <= i < |flushedBy| ==> flushedBy[i] <= (if i == 0 then 0 else flushedBy[i - 1]) + 1
  }

  /** Later writes do not change what had been written by each callback. */
  lemma FlushedInTimeExtend(writes: seq<string>, more: seq<string>, flushedBy: seq<nat>, tokens: seq<string>)
    requires |flushedBy| <= |tokens| && FlushedInTime(writes, flushedBy, tokens)
    ensures FlushedInTime(writes + more, flushedBy, tokens)
  {
    forall i | 0 <= i < |flushedBy| ensures (writes + more)[..flushedBy[i]] == writes[..flushedBy[i]] {
    }
  }

  /** The callback for the next token, after which `buffer` is pending. */
  lemma FlushedInTimeSnoc(writes: seq<string>, buffer: string, flushedBy: seq<nat>, tokens: seq<string>)
    requires |flushedBy| < |tokens| && FlushedInTime(writes, flushedBy, tokens)
    requires Concat(writes) + buffer == Concat(tokens[..|flushedBy| + 1])
    requires |buffer| <= FlushThreshold && '\n' !in buffer
    ensures FlushedInTime(writes, flushedBy + [|writes|], tokens)
  {
    PendingOf(writes, buffer, tokens[..|flushedBy| + 1]);
    assert writes[..|writes|] == writes;
  }

  /** The number of writes made before the callback for token `i`. */
  function Before(flushedBy: seq<nat>, i: nat): nat
    requires i < |flushedBy|
  {
    if i == 0 then 0 else flushedBy[i - 1]
  }

  /** The callback for token `i` wrote exactly when it was due (more than
      20 characters were unwritten, or the token holds a newline), and a
      callback that wrote left nothing pending. */
  predicate FlushedWhenDue(writes: seq<string>, flushedBy: seq<nat>, tokens: seq<string>, i: nat)
    requires i < |flushedBy| <= |tokens|
  {
    && Before(flushedBy, i) <= flushedBy[i] <= |writes|
    && (flushedBy[i] > Before(flushedBy, i) <==>
          Due(|Concat(tokens[..i + 1])| - |Concat(writes[..Before(flushedBy, i)])|, tokens[i]))
    && (flushedBy[i] > Before(flushedBy, i) ==> Concat(writes[..flushedBy[i]]) == Concat(tokens[..i + 1]))
  }

  predicate FlushesWhenDue(writes: seq<string>, flushedBy: seq<nat>, tokens: seq<string>)
    requires |flushedBy| <= |tokens|
  {
    forall i :: 0 <= i < |flushedBy| ==> FlushedWhenDue(writes, flushedBy, tokens, i)
  }

  /** Later writes do not change when each earlier callback wrote. */
  lemma FlushesWhenDueExtend(writes: seq<string>, more: seq<string>, flushedBy: seq<nat>, tokens: seq<string>)
    requires |flushedBy| <= |tokens| && FlushesWhenDue(writes, flushedBy, tokens)
    ensures FlushesWhenDue(writes + more, flushedBy, tokens)
  {
    forall i | 0 <= i < |flushedBy| ensures FlushedWhenDue(writes + more, flushedBy, tokens, i) {
      assert FlushedWhenDue(writes, flushedBy, tokens, i);
      assert (writes + more)[..flushedBy[i]] == writes[..flushedBy[i]];
      assert (writes + more)[..Before(flushedBy, i)] == writes[..Before(flushedBy, i)];
    }
  }

  lemma BeforeSnoc(flushedBy: seq<nat>, count: nat)
    ensures Before(flushedBy + [count], |flushedBy|) == (if flushedBy == [] then 0 else flushedBy[|flushedBy| - 1])
  {
    if flushedBy != [] {
      assert (flushedBy + [count])[|flushedBy| - 1] == flushedBy[|flushedBy| - 1];
    }
  }

  /** The callback for the last recorded token wrote, leaving nothing
      pending, exactly when it was due. */
  lemma FlushedWhenDueLast(writes: seq<string>, buffer: string, flushedBy: seq<nat>, tokens: seq<string>, n: nat)
    requires n + 1 == |flushedBy| <= |tokens|
    requires Before(flushedBy, n) <= flushedBy[n] == |writes| <= Before(flushedBy, n) + 1
    requires Concat(writes[..Before(flushedBy, n)]) + buffer == Concat(tokens[..n])
    requires |writes| > Before(flushedBy, n) <==> Due(|buffer + tokens[n]|, tokens[n])
    requires |writes| > Before(flushedBy, n) ==> Concat(writes) == Concat(tokens[..n + 1])
    ensures FlushedWhenDue(writes, flushedBy, tokens, n)
  {
    ConcatTake(tokens, n);
    assert writes[..flushedBy[n]] == writes;
  }

  /** Recording one more callback keeps the earlier callbacks' records. */
  lemma FlushesWhenDueSnoc(writes: seq<string>, flushedBy: seq<nat>, count: nat, tokens: seq<string>)
    requires |flushedBy| < |tokens| && FlushesWhenDue(writes, flushedBy, tokens)
    requires FlushedWhenDue(writes, flushedBy + [count], tokens, |flushedBy|)
    ensures FlushesWhenDue(writes, flushedBy + [count], tokens)
  {
    var fb := flushedBy + [count];
    forall i | 0 <= i < |flushedBy| ensures FlushedWhenDue(writes, fb, tokens, i) {
      assert FlushedWhenDue(writes, flushedBy, tokens, i);
      assert fb[i] == flushedBy[i] && Before(fb, i) == Before(flushedBy, i);
    }
  }

  /** The state of `queryOpenAI` after the callbacks for the first
      `|flushedBy|` tokens: the writes followed by the buffer are what has
      arrived; the buffer is short and holds no newline; every write is
      non-empty and was due; each callback wrote at most once, and by its end
      all but a pending tail had been written. */
  predicate Buffering(writes: seq<string>, buffer: string, flushedBy: seq<nat>, tokens: seq<string>)
  {
    && |flushedBy| <= |tokens|
    && Concat(writes) + buffer == Concat(tokens[..|flushedBy|])
    && |buffer| <= FlushThreshold && '\n' !in buffer
    && (forall k :: 0 <= k < |writes| ==> writes[k] != "" && (|writes[k]| > FlushThreshold || '\n' in writes[k]))
    && |writes| == (if flushedBy == [] then 0 else flushedBy[|flushedBy| - 1])
    && FlushedInTime(writes, flushedBy, tokens)
    && OneWriteEach(flushedBy)
  }

  /** The callback for the next token, `HandleToken` applied to the state. */
  method Receive(writes: seq<string>, buffer: string, ghost flushedBy: seq<nat>, tokens: seq<string>, i: nat)
    returns (writes': seq<string>, buffer': string, ghost flushedBy': seq<nat>)
    requires Buffering(writes, buffer, flushedBy, tokens) && i == |flushedBy| < |tokens|
    requires FlushesWhenDue(writes, flushedBy, tokens)
    ensures Buffering(writes', buffer', flushedBy', tokens)
    ensures FlushesWhenDue(writes', flushedBy', tokens)
    ensures |flushedBy'| == i + 1
    ensures writes' == writes || writes' == writes + [buffer + tokens[i]]
  {
    var write;
    write, buffer' := HandleToken(buffer, tokens[i]);
    writes' := if write.Some? then writes + [write.value] else writes;
    BufferingSnoc(writes, buffer, flushedBy, tokens, writes', buffer');
    if write.Some? {
      FlushesWhenDueExtend(writes, [write.value], flushedBy, tokens);
    }
    assert writes'[..|writes|] == writes;
    BeforeSnoc(flushedBy, |writes'|);
    FlushedWhenDueLast(writes', buffer, flushedBy + [|writes'|], tokens, i);
    FlushesWhenDueSnoc(writes', flushedBy, |writes'|, tokens);
    flushedBy' := flushedBy + [|writes'|];
  }

  /** One callback keeps the buffering state: its write, if any, is due,
      and the writes and the buffer still add up to what has arrived. */
  lemma BufferingSnoc(writes: seq<string>, buffer: string, flushedBy: seq<nat>, tokens: seq<string>,
                      writes': seq<string>, buffer': string)
    requires Buffering(writes, buffer, flushedBy, tokens) && |flushedBy| < |tokens|
    requires writes' == writes || (|writes'| == |writes| + 1 && writes'[..|writes|] == writes
                                   && writes'[|writes|] == buffer + tokens[|flushedBy|] && buffer' == ""
                                   && writes'[|writes|] != ""
                                   && (|writes'[|writes|]| > FlushThreshold || '\n' in writes'[|writes|]))
    requires writes' == writes ==> buffer' == buffer + tokens[|flushedBy|]
    requires |buffer'| <= FlushThreshold && '\n' !in buffer'
    ensures Buffering(writes', buffer', flushedBy + [|writes'|], tokens)
  {
    var n := |flushedBy|;
    var token := tokens[n];
    ConcatSnoc(tokens[..n], token);
    assert tokens[..n + 1] == tokens[..n] + [token];
    if writes' != writes {
      var w := writes'[|writes|];
      assert writes' == writes + [w];
      ConcatSnoc(writes, w);
      FlushedInTimeExtend(writes, [w], flushedBy, tokens);
    }
    assert Concat(writes') + buffer' == (Concat(writes) + buffer) + token;
    FlushedInTimeSnoc(writes', buffer', flushedBy, tokens);
  }

  /** `queryOpenAI` from the prompt on. Each token is handed to the
      callback; once the stream ends the buffer is written once more, if
      non-empty. A rejection of `invoke` skips that final flush.
      `flushedBy[i]` is the number of writes made by the end of the callback
      for token `i`: each callback makes at most one write, exactly when it
      is due, and that write leaves nothing pending; after every callback at
      most 20 characters of what has arrived, with no newline, are still
      unwritten. */
  method QueryOpenAI(stream: TokenStream) returns (r: Result<string>, writes: seq<string>, ghost flushedBy: seq<nat>)
    ensures stream.failure.None? ==> r == Ok(Concat(stream.tokens)) && Concat(writes) == Concat(stream.tokens)
    ensures stream.failure.Some? ==> r == Err(Message(stream.failure.value))
    ensures stream.failure.Some? ==> exists pending: string ::
              Concat(writes) + pending == Concat(stream.tokens) && |pending| <= FlushThreshold && '\n' !in pending
    ensures forall k :: 0 <= k < |writes| ==> writes[k] != ""
    ensures forall k :: 0 <= k < |writes| - 1 ==> |writes[k]| > FlushThreshold || '\n' in writes[k]
    ensures |flushedBy| == |stream.tokens|
    ensures FlushedInTime(writes, flushedBy, stream.tokens)
    ensures OneWriteEach(flushedBy)
    ensures FlushesWhenDue(writes, flushedBy, stream.tokens)
    ensures |writes| <= (if flushedBy == [] then 0 else flushedBy[|flushedBy| - 1]) + 1
  {
    var tokens := stream.tokens;
    var buffer := "";
    writes := [];
    flushedBy := [];
    var i := 0;
    assert tokens[..0] == [];
    while i < |tokens|
      invariant i == |flushedBy| && Buffering(writes, buffer, flushedBy, tokens)
      invariant FlushesWhenDue(writes, flushedBy, tokens)
    {
      writes, buffer, flushedBy := Receive(writes, buffer, flushedBy, tokens, i);
      i := i + 1;
    }
    assert tokens[..|flushedBy|] == tokens;
    if stream.failure.Some? {
      r := Err(Message(stream.failure.value));
      return;
    }
    if |buffer| > 0 {
      ConcatSnoc(writes, buffer);
      FlushedInTimeExtend(writes, [buffer], flushedBy, tokens);
      FlushesWhenDueExtend(writes, [buffer], flushedBy, tokens);
      writes := writes + [buffer];
    }
    r := Ok(Concat(tokens));
  }

  // ------------------------------------------------------------- dispatch

  /** The scripted world one question meets: the vector store's
      `similaritySearch` (a load failure is its `Err`), and each provider's
      answer to a given prompt. */
  datatype Backend = Backend(
    search: (string, nat) -> Result<seq<VectorStore.Document>>,
    gemini: (string, nat) -> GeminiAttempt,
    openai: string -> TokenStream,
    ollama: string -> Result<string>)

  /** The prompt every provider is sent: the retrieved context, the history
      as passed in, and the question. */
  function FullPrompt(docs: seq<VectorStore.Document>, history: History, question: string): string
  {
    Prompts.ConstructFullPrompt(Prompts.BuildContext(docs), Prompts.FormatConversationHistory(history), question)
  }

  /** `queryLLM(llm, prompt, history)`: dispatch on the configured provider;
      every supported provider first builds the context (whose failure is
      rethrown before any generation call) and sends the same full prompt. */
  method QueryLlm(provider: string, backend: Backend, question: string, history: History)
    returns (r: Result<string>, writes: seq<string>, delays: seq<nat>)
    ensures Providers.Recognise(provider).None? ==>
              r == Err(Providers.UnsupportedProvider(provider)) && writes == [] && delays == []
    ensures Providers.Recognise(provider).Some? && backend.search(Prompts.SearchQuery, Prompts.SearchCount).Err? ==>
              r == Err(backend.search(Prompts.SearchQuery, Prompts.SearchCount).error) && writes == [] && delays == []
    ensures provider == "ollama" && backend.search(Prompts.SearchQuery, Prompts.SearchCount).Ok? ==>
              r == backend.ollama(FullPrompt(backend.search(Prompts.SearchQuery, Prompts.SearchCount).value, history, question))
              && writes == [] && delays == []
    ensures provider == "openai" && backend.search(Prompts.SearchQuery, Prompts.SearchCount).Ok? ==>
              var stream := backend.openai(FullPrompt(backend.search(Prompts.SearchQuery, Prompts.SearchCount).value, history, question));
              delays == [] && (r.Ok? <==> stream.failure.None?) && (r.Ok? ==> r.value == Concat(stream.tokens) == Concat(writes))
    ensures provider == "gemini" ==> |delays| < GeminiRetries
    ensures provider == "gemini" ==> forall k :: 0 <= k < |delays| ==> delays[k] == RetryDelay(k)
  {
    var p := Providers.Recognise(provider);
    if p.None? {
      return Err(Providers.UnsupportedProvider(provider)), [], [];
    }
    writes, delays := [], [];
    var found := backend.search(Prompts.SearchQuery, Prompts.SearchCount);
    if found.Err? {
      return Err(found.error), [], [];
    }
    var fullPrompt := FullPrompt(found.value, history, question);
    match p.value {
      case Gemini =>
        var calls;
        r, writes, delays, calls := QueryGemini((k: nat) => backend.gemini(fullPrompt, k), GeminiRetries);
      case OpenAI =>
        ghost var flushedBy: seq<nat>;
        r, writes, flushedBy := QueryOpenAI(backend.openai(fullPrompt));
      case Ollama =>
        r := backend.ollama(fullPrompt);
    }
  }
}

=== FILE: text.dfy ===
/** String helpers with the meaning of the JavaScript operations the code uses:
    `+=` accumulation, `Array.prototype.join`, `String.prototype.includes` and
    `toLowerCase`. */
module Text {

  /** In-order concatenation of pieces, as repeated `+=` builds it. */
  function Concat(pieces: seq<string>): string
  {
    if pieces == [] then "" else pieces[0] + Concat(pieces[1..])
  }

  lemma {:induction false} ConcatAppend(a: seq<string>, b: seq<string>)
    ensures Concat(a + b) == Concat(a) + Concat(b)
  {
    if a == [] {
      assert a + b == b;
    } else {
      assert (a + b)[1..] == a[1..] + b;
      ConcatAppend(a[1..], b);
    }
  }

  lemma ConcatSnoc(a: seq<string>, s: string)
    ensures Concat(a + [s]) == Concat(a) + s
  {
    ConcatAppend(a, [s]);
    assert Concat([s]) == s + Concat([]);
  }

  /** The concatenation of a prefix one piece longer. */
  lemma ConcatTake(a: seq<string>, n: nat)
    requires n < |a|
    ensures Concat(a[..n + 1]) == Concat(a[..n]) + a[n]
  {
    assert a[..n + 1] == a[..n] + [a[n]];
    ConcatSnoc(a[..n], a[n]);
  }

  /** `pieces.join(sep)`: the empty list gives "", one piece gives itself. */
  function Join(pieces: seq<string>, sep: string): string
  {
    if pieces == [] then ""
    else if |pieces| == 1 then pieces[0]
    else pieces[0] + sep + Join(pieces[1..], sep)
  }

  /** Joining one more piece puts exactly one separator before it. */
  lemma {:induction false} JoinSnoc(pieces: seq<string>, sep: string, s: string)
    requires pieces != []
    ensures Join(pieces + [s], sep) == Join(pieces, sep) + sep + s
  {
    if |pieces| == 1 {
      assert (pieces + [s])[1..] == [s];
    } else {
      assert (pieces + [s])[1..] == pieces[1..] + [s];
      JoinSnoc(pieces[1..], sep, s);
    }
  }

  /** `s.includes(part)`: `part` occurs in `s` at some offset. */
  predicate Contains(s: string, part: string)
    decreases |s|
  {
    |part| <= |s| && (s[..|part|] == part || Contains(s[1..], part))
  }

  /** `toLowerCase` on ASCII letters; every other character is kept. */
  function LowerChar(c: char): char
  {
    if 'A' <= c <= 'Z' then (c as int + 32) as char else c
  }

  function Lower(s: string): (r: string)
    ensures |r| == |s|
    ensures forall k :: 0 <= k < |s| ==> r[k] == LowerChar(s[k])
  {
    if s == [] then [] else [LowerChar(s[0])] + Lower(s[1..])
  }
}

=== FILE: vector_store.dfy ===
/** The codebase scan of `createVectorStore` (vectorStore.js): a depth-first
    walk over directory listings that skips ignored paths, turns files with an
    allowed extension into documents until a token budget would be exceeded,
    and renders an indented tree listing on the way.

    The filesystem is the `Node` tree (listing order is the order of
    `children`), the `ignore` matcher and the `gpt-3-encoder` token count are
    function-typed fields of `ScanConfig`, and the vector index built from the
    documents is left to the embedding provider chosen by `GetEmbeddings`. */
module VectorStore {
  import opened Outcomes
  import Providers

  /** One directory entry as `fs.readdir(dir, { withFileTypes: true })`
      reports it. `Unreadable*` are entries whose `readFile` / `readdir` would
      reject; `Special` is anything that is neither a directory nor a regular
      file (a symbolic link, a socket, ...). */
  datatype Node =
    | File(name: string, content: string)
    | UnreadableFile(name: string)
    | Dir(name: string, children: seq<Node>)
    | UnreadableDir(name: string)
    | Special(name: string)

  /** `{ pageContent, metadata: { source, fileType } }` */
  datatype Document = Document(pageContent: string, source: string, fileType: string)

  /** The resolved settings one scan runs with. */
  datatype ScanConfig = ScanConfig(
    extensions: map<string, bool>,
    limit: int,
    ignores: string -> bool,
    tokens: string -> nat)

  /** The three variables `walkDir` mutates through its closure. */
  datatype ScanState = ScanState(documents: seq<Document>, totalTokens: int, tree: string)

  /** What one `walkDir` call ends with: its boolean result and the shared
      state, or the rejection that escaped it. */
  datatype Walked = Walked(reachedLimit: bool, state: ScanState) | ReadFailed(error: Error)

  // ---------------------------------------------------------------- defaults

  const DefaultExtensions: map<string, bool> := map[
    ".js" := true, ".jsx" := true, ".ts" := true, ".tsx" := true,
    ".php" := true, ".py" := true, ".html" := true, ".css" := true]

  const DefaultMaxTokenLimit: int := 100000

  /** `config.file_extensions || {...}`: an absent setting takes the default
      map; any configured object, even an empty one, is used as it is. */
  function ResolveExtensions(configured: Option<map<string, bool>>): (r: map<string, bool>)
    ensures configured.Some? ==> r == configured.value
    ensures configured.None? ==> r.Keys == {".js", ".jsx", ".ts", ".tsx", ".php", ".py", ".html", ".css"}
    ensures configured.None? ==> forall x :: x in r ==> r[x]
  {
    match configured
    case Some(m) => m
    case None => DefaultExtensions
  }

  /** `config.max_token_limit || 100000`: an absent limit and a limit of 0 (both
      falsy) take the default. */
  function ResolveLimit(configured: Option<int>): (r: int)
    ensures r != 0
    ensures configured.Some? && configured.value != 0 ==> r == configured.value
    ensures configured.None? || configured.value == 0 ==> r == DefaultMaxTokenLimit
  {
    if configured.Some? && configured.value != 0 then configured.value else DefaultMaxTokenLimit
  }

  /** `config.ignore_patterns || []` compiled by `ignore()`: without patterns
      nothing is ignored. */
  function ResolveIgnores(configured: Option<string -> bool>): (r: string -> bool)
    ensures configured.None? ==> forall p :: !r(p)
    ensures configured.Some? ==> forall p :: r(p) == configured.value(p)
  {
    match configured
    case Some(f) => f
    case None => (p: string) => false
  }

  // ---------------------------------------------------------- file names

  /** Index of the last '.' in `s`, if any. */
  function LastDot(s: string): (r: Option<nat>)
    ensures r.Some? ==> r.value < |s| && s[r.value] == '.' && '.' !in s[r.value + 1..]
    ensures r.None? ==> '.' !in s
  {
    if s == [] then None
    else if s[|s| - 1] == '.' then Some(|s| - 1)
    else
      var r := LastDot(s[..|s| - 1]);
      assert s == s[..|s| - 1] + [s[|s| - 1]];
      r
  }

  /** `path.extname(name)` for a single path segment, with Node's POSIX rules:
      the text from the last '.' on, except that there is no extension when
      the name has no '.', when its only '.'s lead it (".bashrc"), or when it
      is "..". */
  function Extname(name: string): (ext: string)
    ensures ext == "" || (ext[0] == '.' && '.' !in ext[1..])
    ensures |ext| <= |name| && name[|name| - |ext|..] == ext
    ensures ext != "" ==> |ext| < |name| && name != ".."
    ensures ext == "" <==> '.' !in name || name == ".." || LastDot(name) == Some(0)
  {
    match LastDot(name)
    case None => ""
    case Some(k) => if k == 0 || name == ".." then "" else name[k..]
  }

  /** `ext.replace('.', '')`: drops the first '.', if there is one. */
  function RemoveFirstDot(s: string): (r: string)
    ensures '.' !in s ==> r == s
    ensures '.' in s ==> |r| == |s| - 1
  {
    if s == [] then s
    else if s[0] == '.' then s[1..]
    else [s[0]] + RemoveFirstDot(s[1..])
  }

  /** Index of the first '.' of a string that has one. */
  function FirstDot(s: string): (k: nat)
    requires '.' in s
    ensures k < |s| && s[k] == '.' && '.' !in s[..k]
  {
    if s[0] == '.' then 0
    else
      var k := FirstDot(s[1..]);
      assert s[..k + 1] == [s[0]] + s[1..][..k];
      k + 1
  }

  /** The character removed is the first '.': everything before it and
      everything after it are kept. */
  lemma {:induction false} RemoveFirstDotDropsFirstDot(s: string)
    requires '.' in s
    ensures RemoveFirstDot(s) == s[..FirstDot(s)] + s[FirstDot(s) + 1..]
  {
    if s[0] != '.' {
      var k := FirstDot(s[1..]);
      RemoveFirstDotDropsFirstDot(s[1..]);
      assert s[..k + 1] == [s[0]] + s[1..][..k];
      assert s[k + 2..] == s[1..][k + 1..];
    }
  }

  function FileType(name: string): (t: string)
    ensures Extname(name) != "" ==> t == Extname(name)[1..]
    ensures Extname(name) == "" ==> t == ""
  {
    RemoveFirstDot(Extname(name))
  }

  /** `fileExtensions[path.extname(name)]` is truthy. */
  predicate Allowed(extensions: map<string, bool>, name: string)
  {
    Extname(name) in extensions && extensions[Extname(name)]
  }

  /** `path.relative(root, path.join(dir, name))` where `dirPath` is `dir`
      relative to the root ("" for the root itself). */
  function RelPath(dirPath: string, name: string): string
  {
    if dirPath == "" then name else dirPath + "/" + name
  }

  // ------------------------------------------------------------ tree art

  function Connector(isLast: bool): string
  {
    if isLast then "\U{2514}\U{2500}\U{2500} " else "\U{251C}\U{2500}\U{2500} "
  }

  function ChildIndent(isLast: bool): string
  {
    if isLast then "    " else "\U{2502}   "
  }

  /** The tree line of an entry: `prefix + connector + name + '\n'`. */
  function Line(prefix: string, isLast: bool, name: string): string
  {
    prefix + Connector(isLast) + name + "\n"
  }

  // ------------------------------------------------------------- budget

  /** Sum of the token counts of `docs`' contents. */
  function TokenSum(tokens: string -> nat, docs: seq<Document>): nat
  {
    if docs == [] then 0
    else TokenSum(tokens, docs[..|docs| - 1]) + tokens(docs[|docs| - 1].pageContent)
  }

  /** The budget invariant: the running total is the documents' token sum and,
      once any document is accepted, it is within the limit. */
  predicate Budgeted(cfg: ScanConfig, st: ScanState)
  {
    && st.totalTokens == TokenSum(cfg.tokens, st.documents)
    && (st.documents == [] || st.totalTokens <= cfg.limit)
  }

  // --------------------------------------------------------------- walk

  /** `walkDir(dir, prefix)` continued from entry `i` of `dir`'s listing
      `entries`, with `dirPath` the directory's path relative to the root. An
      ignored entry is skipped before it is listed; every other entry is
      listed (as last of the listing when it is the raw listing's last entry,
      ignored entries included) before anything is read, so the file that
      trips the budget is listed too. A `true` from a subdirectory is
      returned at once by every enclosing call. */
  function Walk(cfg: ScanConfig, dirPath: string, prefix: string, entries: seq<Node>, i: nat, st: ScanState): (r: Walked)
    requires i <= |entries|
    ensures r.Walked? ==> st.documents <= r.state.documents && st.tree <= r.state.tree
    ensures r.Walked? && Budgeted(cfg, st) ==> Budgeted(cfg, r.state)
    decreases entries, |entries| - i
  {
    if i == |entries| then Walked(false, st)
    else
      var entry := entries[i];
      var relativePath := RelPath(dirPath, entry.name);
      if cfg.ignores(relativePath) then Walk(cfg, dirPath, prefix, entries, i + 1, st)
      else
        var isLast := i == |entries| - 1;
        var listed := st.(tree := st.tree + Line(prefix, isLast, entry.name));
        match entry
        case Dir(_, children) =>
          var sub := Walk(cfg, relativePath, prefix + ChildIndent(isLast), children, 0, listed);
          if sub.ReadFailed? || sub.reachedLimit then sub
          else Walk(cfg, dirPath, prefix, entries, i + 1, sub.state)
        case UnreadableDir(_) => ReadFailed(DirectoryUnreadable(relativePath))
        case File(name, content) =>
          if !Allowed(cfg.extensions, name) then Walk(cfg, dirPath, prefix, entries, i + 1, listed)
          else
            var tokens := cfg.tokens(content);
            if listed.totalTokens + tokens > cfg.limit then Walked(true, listed)
            else
              var doc := Document(content, relativePath, FileType(name));
              assert (listed.documents + [doc])[..|listed.documents|] == listed.documents;
              Walk(cfg, dirPath, prefix, entries, i + 1,
                   listed.(totalTokens := listed.totalTokens + tokens, documents := listed.documents + [doc]))
        case UnreadableFile(name) =>
          if Allowed(cfg.extensions, name) then ReadFailed(FileUnreadable(relativePath))
          else Walk(cfg, dirPath, prefix, entries, i + 1, listed)
        case Special(_) => Walk(cfg, dirPath, prefix, entries, i + 1, listed)
  }

  /** The outcome of the scan: the documents in acceptance order, the token
      total, the tree listing and whether the budget stopped the walk. */
  datatype Scan = Scan(documents: seq<Document>, totalTokens: int, tree: string, reachedLimit: bool)

  function InitialState(): ScanState
  {
    ScanState([], 0, "")
  }

  /** `walkDir(codebasePath)`: a root that is not a readable directory makes
      the first `readdir` reject. */
  function ScanCodebase(cfg: ScanConfig, root: Node): (r: Result<Scan>)
    ensures r.Ok? ==> root.Dir?
    ensures r.Ok? ==> r.value.totalTokens == TokenSum(cfg.tokens, r.value.documents)
    ensures r.Ok? && r.value.documents != [] ==> r.value.totalTokens <= cfg.limit
  {
    match root
    case Dir(_, children) =>
      (match Walk(cfg, "", "", children, 0, InitialState())
       case Walked(reached, st) => Ok(Scan(st.documents, st.totalTokens, st.tree, reached))
       case ReadFailed(e) => Err(e))
    case _ => Err(DirectoryUnreadable(""))
  }

  /** The settings `createVectorStore` reads, before defaults are applied. */
  datatype StoreSettings = StoreSettings(
    llm: Providers.LlmConfig,
    fileExtensions: Option<map<string, bool>>,
    maxTokenLimit: Option<int>,
    ignorePatterns: Option<string -> bool>)

  function ResolveScanConfig(settings: StoreSettings, tokens: string -> nat): ScanConfig
  {
    ScanConfig(
      ResolveExtensions(settings.fileExtensions),
      ResolveLimit(settings.maxTokenLimit),
      ResolveIgnores(settings.ignorePatterns),
      tokens)
  }

  /** What `createVectorStore` hands to `FaissStore.fromDocuments`. */
  datatype Build = Build(scan: Scan, embeddings: Providers.Embeddings)

  /** `createVectorStore` up to the index build: scan, then choose the
      embeddings. A read rejection aborts before the provider is examined; an
      unsupported provider aborts after a successful scan. Both are rethrown. */
  function CreateVectorStore(settings: StoreSettings, tokens: string -> nat, root: Node): (r: Result<Build>)
    ensures r.Ok? <==> ScanCodebase(ResolveScanConfig(settings, tokens), root).Ok?
                       && Providers.Recognise(settings.llm.provider).Some?
    ensures r.Ok? ==> r.value.scan == ScanCodebase(ResolveScanConfig(settings, tokens), root).value
    ensures ScanCodebase(ResolveScanConfig(settings, tokens), root).Err? ==>
              r == Err(ScanCodebase(ResolveScanConfig(settings, tokens), root).error)
    ensures ScanCodebase(ResolveScanConfig(settings, tokens), root).Ok? && Providers.Recognise(settings.llm.provider).None? ==>
              r == Err(Providers.EmbeddingsError(settings.llm.provider))
    ensures r.Ok? ==> r.value.embeddings == Providers.GetEmbeddings(settings.llm).value
  {
    match ScanCodebase(ResolveScanConfig(settings, tokens), root)
    case Err(e) => Err(e)
    case Ok(scan) =>
      match Providers.GetEmbeddings(settings.llm)
      case Err(e) => Err(e)
      case Ok(embeddings) => Ok(Build(scan, embeddings))
  }
}
